=== FILE: README.md ===
# accessmon in Dafny

A verified model of the core of **accessmon**, a monitor for HTTP access logs
in the W3C Common Log Format
(`127.0.0.1 - mary [09/May/2018:16:00:42 +0000] "POST /api/user HTTP/1.0" 503 12`).
The monitor parses each line into a request and appends it to a time-ordered
store. It tells an alerter how many requests fall in the alert window, then
drops requests older than the store window. On demand it summarises a recent
window as request tallies and "top" rankings of users, sections and source
addresses.

The model is split into modules that follow the Go files:

| module | file | models |
|---|---|---|
| `Wrappers` | `wrappers.dfy` | `Option` and `Result` |
| `Text` | `text.dfy` | the three `strings` functions the parser uses: `Index`, `TrimRight`, `TrimPrefix` |
| `LogFormat` | `log_format.dfy` | the separators of the log line and how they join eight fields |
| `Requests` | `requests.dfy` | `request.go`: the request record, its three predicates, `String` |
| `Parser` | `parser.dfy` | `parser.go`: `parseNext`, `Parse`, `parseSection` |
| `RequestStore` | `store.dfy` | `store.go`: `AddRequest`, `Since`, `Clean`, `Deadline` |
| `Statistics` | `stats.dfy` | `stats.go`: the counter, `incr`, `top`, `NewStats` |
| `Monitoring` | `monitor.dfy` | `monitor.go`: `Config`, `NewMonitor`, `AddLine`, `Stats`, `Alerts`, `Last` |
| `TestVectors` | `test_vectors.dfy` | the repository's unit-test expectations, restated as lemmas |

Conventions:

- Times are integers, counted in the unit of the window lengths.
- `Deadline(now, window)` is `now - window`.
- A store is a sequence of requests.
- A monitor is an immutable value: `AddLine` returns the next monitor, together with the alert, if any.
- Conversions the Go code gets from its standard library are fields of a `Codecs` value, passed as a parameter. These are `net.ParseIP`, `IP.String`, `time.Parse`, `Time.Format`, `strconv.Atoi` and `%d`.
- The predicate `Requests.Canonical(c, f)` says that one line spells each of its converted fields (address, date, code, size) exactly as the formatters print the parsed value. It is a property of a line, not of the conversions: Go's conversions also accept other spellings.
- The alerter's moving average is behind an `AlertPolicy` value: its `check` and `alerts` functions.
- The monitor keeps the log of every `(time, count)` sample it has handed to the alerter, so the properties of that stream can be stated.

### Where the model follows the code rather than its comments

- **Top-N order.** The comment at `stats.go:83` says `top` keeps "the n most frequent values". But `CounterList.Less` (`stats.go:107`) sorts by *ascending* count, and `top` keeps the first `n`, so it returns the **least** frequent keys. The model follows the code:
  - `Statistics.Ranked` is stated in ascending order.
  - `Statistics.RankingKeepsLeastFrequent` shows that, for counts `{rare: 1, frequent: 5}` and `n = 1`, the only ranking is `[rare: 1]`.
- **The length guard of `parseNext`.** The guard `len(line) < len(sep)+1` (`parser.go:27`) never decides whether a cut succeeds. Any line with a separator at a positive index is long enough anyway. `Parser.ParseNext` states success as exactly "no separator at index 0, and one further on". The guard only chooses which error is reported.
- **A non-positive store window.** `storeWindow <= 0` is only possible when the alert window is also `<= 0`; in that case there is no alerter. The store is emptied after every line, so the order check never refuses a line, and `Last` can move backwards. `Monitoring.Valid` allows this.

## Model

| member | source | states |
|---|---|---|
| Text.Index | parser.go:30 | the index of the first occurrence of the separator, or -1 exactly when it occurs nowhere |
| Text.TrimRight | parser.go:45 | strips exactly the longest all-`\r`/`\n` tail: the result is a prefix, does not end in a cut character, and only cut characters were removed |
| Text.TrimPrefix | parser.go:128 | removes the prefix exactly when the string starts with it, and otherwise returns the string unchanged |
| Text.MissingCharacter | parser.go:30-33 | a string lacking any character of the separator contains no occurrence of it |
| Parser.ParseNext | parser.go:26-38 | succeeds exactly when the separator first occurs at a positive index; then `part + sep + rest` is the line, the part is nonempty and holds no earlier occurrence; a line shorter than the separator plus one is `TooShort`, and a failing line that is long enough is `SeparatorNotFound` of that separator |
| Parser.SplitAll | parser.go:49-84 | a successful chain of cuts yields one nonempty part per separator, which rejoin with the separators and the remainder into the input line; every part ends at the first occurrence of its separator in what the earlier cuts left; a failed chain reports `TooShort` or `SeparatorNotFound` of one of its separators |
| Parser.SplitAllOfJoin | parser.go:49-84 | conversely, nonempty parts that each end at the first occurrence of their separator are recovered exactly, with the remainder, from the line they join into |
| Parser.CutsAreUnique | parser.go:26-38 | a line has at most one decomposition into first-occurrence cuts, so the parts and the remainder are determined by the line |
| Parser.Split | parser.go:43-84 | after trimming line breaks, a successful split lays out back into the trimmed line, each leading field nonempty and ending at the first occurrence of its separator in the rest of the line, and the size field not ending in a line break; a line missing any separator fails, and every failure is `TooShort` or `SeparatorNotFound` of a line separator |
| Parser.SplitOfLayout | parser.go:43-84 | conversely, fields with those three properties make up a line that splits into exactly those fields, so `Split` accepts exactly the layouts of such fields |
| Parser.ParseOfLayout | parser.go:41-125 | the line laid out from such fields is accepted exactly when its address, date, code and size convert, and then it is their decoding |
| Parser.Decode | parser.go:86-124 | builds a request exactly when the address, date, code and size all convert; the first of them that does not convert names the error (`InvalidIP`, `InvalidDate`, `InvalidCode`, `InvalidSize`, checked in that order); the section is `parseSection` of the path; when the line spells each converted field as the formatters print it, the request's fields print back to the split text |
| Parser.Parse | parser.go:41-125 | a line missing a separator is refused; a split failure is returned as is and a successful split is decoded; an accepted request has an address and the section of its path; when the line spells each converted field as the formatters print it, `String` of the request gives back the line without its trailing line breaks |
| Parser.ParseSection | parser.go:127-134 | the section starts with `/`; `""` and `"/"` give `"/"`; otherwise it is `/` followed by the first path segment (after one leading `/` is removed), which holds no `/` and is maximal, or, for a path starting `//`, the whole rest of the path |
| LogFormat.LayoutTemplate | request.go:45 | joining the eight fields with the separators is the format `"%s - %s [%s] \"%s %s %s\" %d %d"` |
| Requests.To4 | request.go:33 | a 4-byte form exists exactly for an address that is not a genuine IPv6 address |
| Requests.IsHTTP2 | request.go:24-26 | holds exactly when the version string has `HTTP/2` as a prefix |
| Requests.IsIPv6 | request.go:29-34 | holds exactly for a known address that is IPv6; a nil address is not IPv6 |
| Requests.IsServerError | request.go:37-39 | holds exactly when `code / 100 >= 5`, that is, `code >= 500` |
| Requests.IPText | request.go:46 | a nil address prints as `<nil>`; an address prints as any text it was parsed from that is the formatter's own spelling of it |
| Requests.String | request.go:43-54 | the printed line is the common layout of the request's eight printed fields, the layout `Parse` cuts apart |
| RequestStore.AddRequest | store.go:15-27 | refuses exactly a request older than the last stored one; otherwise appends it; on a sorted store it succeeds exactly when the result stays sorted |
| RequestStore.Since | store.go:29-38 | a suffix of the store whose requests are all newer than the deadline, and no longer suffix has that property |
| RequestStore.ScanSince | store.go:30-38 | the backward scan returns the suffix after the last request at or before the deadline, which is `Since` |
| RequestStore.Clean | store.go:40-55 | a suffix of the store; every dropped request is at or before the deadline; a remaining head is after it; nothing is dropped from an empty store or one whose head is after the deadline |
| RequestStore.ScanClean | store.go:41-55 | the forward loop drops leading requests at or before the deadline, which is `Clean` |
| RequestStore.SinceAntitone | store.go:29-38 | a later deadline selects a suffix of what an earlier deadline selects |
| RequestStore.SinceExact | store.go:31-37 | on a sorted store, a request is selected exactly when it is newer than the deadline |
| RequestStore.SinceIsClean | store.go:29-55 | on a sorted store, `Since` and `Clean` with the same deadline keep the same requests |
| RequestStore.CleanIdempotent | store.go:41-55 | cleaning twice to the same deadline is cleaning once |
| RequestStore.CleanKeepsNewer | store.go:41-55 | on a sorted store, the cleaned store is sorted and holds only requests newer than the deadline |
| RequestStore.CleanEmpties | store.go:41-55 | a deadline at or after the newest request empties a sorted store |
| RequestStore.CleanKeepsNewest | store.go:41-55 | a deadline before the newest request keeps that request last |
| RequestStore.SinceWindowMonotone | store.go:57-60 | a wider window ending at the same instant selects at least as many requests |
| Statistics.Incr | stats.go:79-81 | adds one to the key's count, starting from zero, and leaves every other key alone |
| Statistics.CountKeys | stats.go:54-58 | the counter holds exactly the keys seen, each with its number of occurrences |
| Statistics.CountMatching | stats.go:28-42 | a tally never exceeds the number of requests |
| Statistics.CountMatchingIsCardinality | stats.go:28-42 | a tally is the number of positions whose request satisfies the predicate |
| Statistics.Top | stats.go:85-107 | returns `min(n, number of keys)` distinct keys with their exact counts, in ascending order of count, and every key left out is at least as frequent as every key kept |
| Statistics.TotalWithinIncrements | stats.go:85-89 | the counts in a ranking of the counter sum to at most the number of increments |
| Statistics.RankedWithinIncrements | stats.go:54-62 | a ranking of a key list's counter has no more entries than the list, and its counts sum to at most its length |
| Statistics.RankingKeepsLeastFrequent | stats.go:83-107 | with counts `{rare: 1, frequent: 5}`, a top-1 ranking can only be `[rare: 1]`, the least frequent key |
| Statistics.NewStats | stats.go:20-66 | counts every request; the IPv6, HTTP/2 and server-error tallies count the requests satisfying each predicate; with `top > 0` the three rankings rank the counters of source addresses, users and sections; otherwise they are empty |
| Monitoring.NewMonitor | monitor.go:26-42 | the store window becomes the larger of the two windows; an alerter exists exactly when the alert window and threshold are positive; the store is empty; the result satisfies `Valid` |
| Monitoring.Check | monitor.go:67 | hands the sample to the alerter, whose log then ends with that sample |
| Monitoring.Accept | monitor.go:55-75 | fails exactly when the store refuses the request; otherwise `last` becomes the request's time, the configuration is unchanged, the alerter stays present or absent, and without an alerter there is no alert |
| Monitoring.AddLine | monitor.go:46-76 | a parse error or a store refusal is returned as such, with no new monitor; a line that parses into a request the store takes succeeds with `Accept` of that request, and every success is such an `Accept` |
| Monitoring.AcceptKeepsValid | monitor.go:55-75 | accepting a request preserves the monitor invariant (sorted store bounded by `last`, alerter matching the configuration, alerter samples in time order and ending at `last`) |
| Monitoring.AcceptFeedsAlerter | monitor.go:62-68 | with an alerter, accepting a request logs one sample at the request's time, no earlier than the ones before; its count is the number of stored requests in the alert window, and is at least 1; the alert is the policy's answer to that sample |
| Monitoring.AcceptKeepsWindow | monitor.go:70-73 | after accepting, the store is sorted and holds only requests within the store window ending at the request's time, and with a positive window it ends with that request |
| Monitoring.OfferExtendsLog | monitor.go:46-76 | feeding one line, valid or not, keeps the invariant and only extends the alerter's sample log |
| Monitoring.Offer | cmd/offline.go:27-30 | a line `AddLine` refuses leaves the monitor as it was, and a line it takes is replaced by the monitor `AddLine` returns; any line keeps the configuration and the presence of the alerter |
| Monitoring.Replay | cmd/offline.go:23-37 | over any sequence of lines the configuration and the presence of the alerter never change, and a sequence of lines all refused leaves the monitor as it was |
| Monitoring.ReplaySnoc | cmd/offline.go:23-37 | replaying one more line is offering that line to the monitor the earlier lines left, so a replay applies every accepted line in order |
| Monitoring.ReplayFeedsInOrder | cmd/offline.go:23-37 | replaying any sequence of lines and skipping the ones refused keeps the invariant and feeds the alerter samples in time order |
| Monitoring.Stats | monitor.go:79-82 | the tallies count exactly the stored requests newer than `last - window`, and with a positive `top` the three rankings rank the source, user and section counters of those requests; on a valid monitor a stored request is counted exactly when it lies in that window |
| Monitoring.Alerts | monitor.go:85-90 | no alerts without an alerter, and otherwise the alerter's alerts |
| TestVectors.ParseNextVectors | parser_test.go:10-20 | `""` is too short and `"part - line"` cuts into `"part"` and `"line"` |
| TestVectors.ParseNextRefusesMissingSeparator | parser_test.go:14-15 | `"this line is not valid"` is refused |
| TestVectors.ParseSectionVectors | parser_test.go:95-106 | the sections of `""`, `"/"`, `"/api"` and `"/api/path"` are `/`, `/`, `/api` and `/api` |
| TestVectors.RequestVectors | request_test.go:9-58 | `HTTP/2.0` is HTTP/2 and `HTTP/1.0`, `HTTP/1.1`, `""` and `blah` are not; a missing or v4 address is not IPv6 and a v6 one is; codes 200, 0 and -1 are not server errors and 500 and 599 are |
| TestVectors.ZeroRequestPrints | request_test.go:60-62 | the zero request, printed with the zero time and `0`, is `<nil> -  [01/Jan/0001:00:00:00 +0000] "  " 0 0` |
| TestVectors.SampleLineSplits | parser_test.go:39-50 | the sample line `127.0.0.1 - mary [...] "POST /api/user HTTP/1.0" 503 12` splits into exactly the eight field texts the test checks |
| TestVectors.SampleLineRoundTrip | request_test.go:64-69 | with conversions that read and print back the sample's address, date, `503` and `12`, the sample parses into the expected user, method, path, section, version, code and size, and prints back as the sample line |
| TestVectors.StoreVectors | store_test.go:29-89 | with two requests per instant, `Since` one unit after or at the newest instant selects none, one unit earlier two, a minute earlier all; cleaning one unit back keeps two |

## Left out

- The alerter's moving average, its alert start and end rules, and its alert list. `alerter.go` is not part of this model. `AlertPolicy` stands for it, and the model proves only what the monitor feeds to it.
- Monitoring.Check: the alerter receives the request count, not the Go rate `count / window-in-seconds`. That division is a float64 division.
- Statistics.NewStats: states the integer tallies, not the float64 percentages `tally / count * 100`. When nothing is counted, those percentages are NaN.
- The standard-library conversions. IP parsing and printing, date parsing and formatting, and integer parsing and printing are parameters (`Codecs`). Their behaviour beyond being functions is assumed only where `Requests.Canonical` of a line is a hypothesis, and in the test vectors, which assume what the conversions return on the tests' own strings.
- Parser.Parse: the print-back property holds only for lines whose address, date, code and size are each spelled as the formatters print the parsed value. `strconv.Atoi` also accepts `"007"` and `"+5"`, which `%d` prints as `7` and `5`. `net.ParseIP` also accepts non-canonical IPv6 spellings such as `0:0:0:0:0:0:0:1`, which prints as `::1`. For those lines Go's `String()` of the parsed request differs from the line. A date written with a zone offset is a different matter: Go's `time.Parse` keeps the offset and `Time.Format` prints it back, so Go does print such a line back. The model cannot, because its times are bare instants with one printed form each, so its property excludes every date spelled with an offset other than the one `formatTime` prints.
- Go strings are byte strings. `len` and `strings.Index` count bytes, while the model counts characters. This changes no successful cut: a byte index and a character index mark the same split, because a separator that is plain ASCII cannot start inside a multi-byte character. A Go string never has fewer bytes than the model string has characters, so Go can report `SeparatorNotFound` where the model reports `TooShort`, never the reverse; the call fails in both cases.
- `time.Time` is an integer here. The model drops time zones, monotonic readings and the saturation of `Time.Add` on overflow. Go's `int` widths are unbounded here: counts cannot reach 2^63 in practice, and code and size range checks belong to the `Atoi` codec.
- Statistics.Top: requires `n >= 0`. For negative `n`, Go's `top[:n]` panics; `NewStats` only calls `top` with `n > 0`.
- Statistics.Top: leaves the order among equal counts unspecified. Go iterates maps in random order and `sort.Sort` is not stable, so the source does not fix it either.
- The difference between a `nil` and an empty slice: both are the empty sequence, except in `Monitoring.Alerts`. There the nil list that `Monitor.Alerts` returns without an alerter is `None`, and an alerter's empty list is `Some([])`.
- Shared references:
  - `NewMonitor` writes the normalised store window back into the caller's `*Config`. The model returns it inside the monitor.
  - The store holds references to requests (`*Request`); the model holds values.
  - The `s.requests[0] = nil` in `Clean` only concerns garbage collection.
- The `Parser` interface. The monitor always uses the W3C parser; the model calls `Parser.Parse` directly.
- Monitoring.Last and RequestStore.Deadline are one-line accessors. They are defined but carry no contract of their own, and only `Deadline` is used elsewhere in the model: `Last` returns the `last` field, and `Deadline` is `now - window`.
- The command-line program (`cmd/`): flags, file reading and tailing, the display, the refresh ticker and the log generator. Only the skip-refused-lines loop of the offline mode is modelled, as `Monitoring.Replay`.
- Concurrency. The Go types are documented as not thread safe and are used from one goroutine.

=== FILE: log_format.dfy ===
/**
 * The layout of one line of the W3C httpd Common Logfile Format:
 *
 *   <ip> - <user> [<date>] "<method> <path> <version>" <code> <size>
 *
 * A line is seven fields each followed by a literal separator, then the
 * size field. The parser splits on these separators in this order and the
 * request formatter joins with them, so both sides share this table.
 */
module LogFormat {

  /** The separators following the ip, user, date, method, path, version and code fields. */
  const Separators: seq<string> := [" - ", " [", "] \"", " ", " ", "\" ", " "]

  /** `parts[0] + seps[0] + parts[1] + seps[1] + ... + rest`. */
  function JoinWith(parts: seq<string>, seps: seq<string>, rest: string): string
    requires |parts| == |seps|
  {
    if |parts| == 0 then rest
    else parts[0] + seps[0] + JoinWith(parts[1..], seps[1..], rest)
  }

  /** The eight raw text fields of one log line, before any conversion. */
  datatype Fields = Fields(
    ip: string,
    user: string,
    date: string,
    verb: string,
    path: string,
    version: string,
    code: string,
    size: string)

  /** The fields that are followed by a separator, in line order. */
  function Leading(f: Fields): (parts: seq<string>)
    ensures |parts| == |Separators|
  {
    [f.ip, f.user, f.date, f.verb, f.path, f.version, f.code]
  }

  /** The fields named by the pieces of a cut line. */
  function FromPieces(parts: seq<string>, rest: string): (f: Fields)
    requires |parts| == |Separators|
    ensures Leading(f) == parts && f.size == rest
  {
    Fields(parts[0], parts[1], parts[2], parts[3], parts[4], parts[5], parts[6], rest)
  }

  /** The line the fields make up. */
  function Layout(f: Fields): string
  {
    JoinWith(Leading(f), Separators, f.size)
  }

  /**
   * Joining with the separator table fills in the W3C line template
   * `<ip> - <user> [<date>] "<method> <path> <version>" <code> <size>`,
   * grouped here as each field with the separator after it.
   */
  lemma LayoutTemplate(f: Fields)
    ensures Layout(f)
              == f.ip + " - " + (f.user + " [" + (f.date + "] \"" + (f.verb + " " + (f.path + " "
                 + (f.version + "\" " + (f.code + " " + f.size))))))
  {
    var parts, seps, h := Leading(f), Separators, f.size;
    assert parts[0..] == parts && seps[0..] == seps;
    assert JoinWith(parts[7..], seps[7..], h) == h;
    JoinStep(parts, seps, h, 6);
    JoinStep(parts, seps, h, 5);
    JoinStep(parts, seps, h, 4);
    JoinStep(parts, seps, h, 3);
    JoinStep(parts, seps, h, 2);
    JoinStep(parts, seps, h, 1);
    JoinStep(parts, seps, h, 0);
  }

  /** Joining from position k is the k-th part and separator, then the join from k + 1. */
  lemma JoinStep(parts: seq<string>, seps: seq<string>, rest: string, k: nat)
    requires |parts| == |seps| && k < |parts|
    ensures JoinWith(parts[k..], seps[k..], rest)
              == parts[k] + seps[k] + JoinWith(parts[k + 1..], seps[k + 1..], rest)
  {
    assert parts[k..][1..] == parts[k + 1..] && seps[k..][1..] == seps[k + 1..];
  }

  /**
   * The last character of a join: the remainder's last character, or the
   * last separator's when the remainder is empty.
   */
  lemma {:induction false} LastOfJoin(parts: seq<string>, seps: seq<string>, rest: string)
    requires |parts| == |seps|
    ensures var s := JoinWith(parts, seps, rest);
            |rest| > 0 ==> |s| > 0 && s[|s| - 1] == rest[|rest| - 1]
    ensures var s := JoinWith(parts, seps, rest);
            |rest| == 0 && |seps| > 0 && |seps[|seps| - 1]| > 0 ==>
              |s| > 0 && s[|s| - 1] == seps[|seps| - 1][|seps[|seps| - 1]| - 1]
    decreases |parts|
  {
    if |parts| > 0 {
      LastOfJoin(parts[1..], seps[1..], rest);
      if |parts| > 1 {
        assert seps[1..][|seps| - 2] == seps[|seps| - 1];
      }
    }
  }
}

=== FILE: monitor.dfy ===
/**
 * The monitor that binds parser, store and alerter (monitor.go). It is
 * used by one caller at a time, so it is modelled as a value that each
 * operation maps to a new value.
 */
module Monitoring {
  import opened Wrappers
  import opened Requests
  import opened Parser
  import opened RequestStore
  import Statistics

  /** `Config`. Windows are durations in the same unit as request times. */
  datatype Config = Config(storeWindow: int, alertWindow: int, alertThreshold: real)

  /** One call of `Alerter.Check`: the newest request's time and the request count in the alert window. */
  datatype Sample = Sample(time: int, count: nat)

  /** An alert as the alerter reports it; `end == None` while it is ongoing. */
  datatype Alert = Alert(start: int, end: Option<int>, value: real)

  /** The alerter: its window and threshold and every sample it was fed, oldest first. */
  datatype Alerter = Alerter(window: int, threshold: real, log: seq<Sample>)

  /**
   * The alerter's decisions, which are not part of this model: the alert
   * (if any) `Check` returns for a new sample given the alerter so far, and
   * the alerts `Alerts` lists after a history of samples.
   */
  datatype AlertPolicy = AlertPolicy(
    check: (Alerter, Sample) -> Option<Alert>,
    alerts: Alerter -> seq<Alert>)

  /** `Monitor`; the parser is the W3C parser, whose conversions are passed to `AddLine`. */
  datatype Monitor = Monitor(config: Config, store: seq<Request>, alerter: Option<Alerter>, last: int)

  /** Why `AddLine` skipped a line. */
  datatype MonitorError = Unparsable(parse: ParseError) | Rejected(order: StoreError)

  /** The monitor after a line, and the alert that line triggered, if any. */
  datatype Step = Step(monitor: Monitor, alert: Option<Alert>)

  /** Go's zero `time.Time`, the time of the last request before any line was added. */
  const ZeroTime: int := 0

  /** Samples were fed in non-decreasing time order. */
  predicate InTimeOrder(log: seq<Sample>)
  {
    forall i, j :: 0 <= i < j < |log| ==> log[i].time <= log[j].time
  }

  /**
   * What every monitor built by `NewMonitor` and updated by `AddLine`
   * satisfies: a normalised configuration, a sorted store holding nothing
   * newer than the last request, an alerter exactly when alerting is
   * configured, fed in time order, whose newest sample is the newest stored
   * request.
   */
  ghost predicate Valid(m: Monitor)
  {
    && m.config.storeWindow >= m.config.alertWindow
    && (m.alerter.Some? <==> m.config.alertWindow > 0 && m.config.alertThreshold > 0.0)
    && Sorted(m.store)
    && (forall i :: 0 <= i < |m.store| ==> m.store[i].time <= m.last)
    && (m.alerter.Some? ==>
          var log := m.alerter.value.log;
          && m.alerter.value.window == m.config.alertWindow
          && m.alerter.value.threshold == m.config.alertThreshold
          && InTimeOrder(log)
          && (|log| > 0 ==>
                && |m.store| > 0
                && m.store[|m.store| - 1].time == m.last
                && log[|log| - 1].time == m.last))
  }

  /**
   * `NewMonitor`: the store window is raised to the alert window when it is
   * shorter, and an alerter exists exactly when both the alert window and
   * the threshold are positive.
   */
  function NewMonitor(config: Config): (m: Monitor)
    ensures m.config.storeWindow >= config.storeWindow && m.config.storeWindow >= config.alertWindow
    ensures m.config.storeWindow == config.storeWindow || m.config.storeWindow == config.alertWindow
    ensures m.config.alertWindow == config.alertWindow
    ensures m.config.alertThreshold == config.alertThreshold
    ensures m.alerter.Some? <==> config.alertWindow > 0 && config.alertThreshold > 0.0
    ensures m.alerter.Some? ==> m.alerter.value.log == []
    ensures m.store == [] && m.last == ZeroTime
    ensures Valid(m)
  {
    var normalised :=
      if config.storeWindow < config.alertWindow then config.(storeWindow := config.alertWindow)
      else config;
    var alerter :=
      if config.alertWindow > 0 && config.alertThreshold > 0.0
      then Some(Alerter(config.alertWindow, config.alertThreshold, []))
      else None;
    Monitor(normalised, [], alerter, ZeroTime)
  }

  /** `Alerter.Check`: the alerter records the sample and the policy decides the alert. */
  function Check(policy: AlertPolicy, a: Alerter, sample: Sample): (r: (Alerter, Option<Alert>))
    ensures r.0.window == a.window && r.0.threshold == a.threshold
    ensures r.0.log == a.log + [sample]
  {
    (a.(log := a.log + [sample]), policy.check(a, sample))
  }

  /**
   * The part of `Monitor.AddLine` after parsing: store the request, feed the
   * alerter the count of stored requests in the alert window (the new one
   * included, before cleaning), clean the store to the store window, and
   * remember the request's time. A request the store refuses changes nothing.
   */
  function Accept(m: Monitor, policy: AlertPolicy, req: Request): (r: Result<Step, StoreError>)
    ensures r.Failure? <==> AddRequest(m.store, req).Failure?
    ensures r.Success? ==>
              && r.value.monitor.last == req.time
              && r.value.monitor.config == m.config
              && (r.value.monitor.alerter.Some? <==> m.alerter.Some?)
    ensures r.Success? && m.alerter.None? ==> r.value.alert.None?
  {
    match AddRequest(m.store, req)
    case Failure(e) => Failure(e)
    case Success(stored) =>
      var kept := Clean(stored, Deadline(req.time, m.config.storeWindow));
      match m.alerter
      case None => Success(Step(Monitor(m.config, kept, None, req.time), None))
      case Some(a) =>
        var count := |Since(stored, Deadline(req.time, m.config.alertWindow))|;
        var checked := Check(policy, a, Sample(req.time, count));
        Success(Step(Monitor(m.config, kept, Some(checked.0), req.time), checked.1))
  }

  /**
   * `Monitor.AddLine`: a line that does not parse, or whose request the
   * store refuses, is reported and changes nothing; otherwise the request is
   * accepted and the monitor's last time becomes the request's time.
   */
  function AddLine(m: Monitor, c: Codecs, policy: AlertPolicy, line: string): (r: Result<Step, MonitorError>)
    ensures Parse(c, line).Failure? ==> r == Failure(Unparsable(Parse(c, line).error))
    ensures Parse(c, line).Success? && AddRequest(m.store, Parse(c, line).value).Failure? ==>
              r == Failure(Rejected(InThePast))
    ensures r.Success? ==>
              && Parse(c, line).Success?
              && r.value.monitor.last == Parse(c, line).value.time
              && r.value.monitor.config == m.config
    ensures r.Success? && m.alerter.None? ==> r.value.alert.None? && r.value.monitor.alerter.None?
    ensures r.Success? ==> Accept(m, policy, Parse(c, line).value) == Success(r.value)
    ensures Parse(c, line).Success? && AddRequest(m.store, Parse(c, line).value).Success? ==>
              r == Success(Accept(m, policy, Parse(c, line).value).value)
  {
    match Parse(c, line)
    case Failure(e) => Failure(Unparsable(e))
    case Success(req) =>
      match Accept(m, policy, req)
      case Failure(e) => Failure(Rejected(e))
      case Success(step) => Success(step)
  }

  /** A request the store takes is at least as new as everything stored. */
  lemma StoredBeforeNewest(s: seq<Request>, req: Request)
    requires Sorted(s)
    requires AddRequest(s, req).Success?
    ensures Sorted(s + [req])
    ensures forall i :: 0 <= i < |s + [req]| ==> (s + [req])[i].time <= req.time
  {
  }

  /** Every request `Accept` takes keeps the monitor valid. */
  lemma AcceptKeepsValid(m: Monitor, policy: AlertPolicy, req: Request)
    requires Valid(m)
    requires Accept(m, policy, req).Success?
    ensures Valid(Accept(m, policy, req).value.monitor)
  {
    AcceptStores(m, policy, req);
    var stored := m.store + [req];
    var d := Deadline(req.time, m.config.storeWindow);
    var m' := Accept(m, policy, req).value.monitor;
    StoredBeforeNewest(m.store, req);
    CleanKeepsNewer(stored, d);
    assert Sorted(m'.store);
    assert forall i :: 0 <= i < |m'.store| ==> m'.store[i].time <= m'.last;
    if m.alerter.Some? {
      AlerterStaysInOrder(m, policy, req);
    }
  }

  /** With an alerter, `Accept` appends a sample no older than the ones before and keeps the request. */
  lemma AlerterStaysInOrder(m: Monitor, policy: AlertPolicy, req: Request)
    requires Valid(m) && m.alerter.Some?
    requires Accept(m, policy, req).Success?
    ensures var m' := Accept(m, policy, req).value.monitor;
            var log' := m'.alerter.value.log;
            && m'.alerter.value.window == m'.config.alertWindow
            && m'.alerter.value.threshold == m'.config.alertThreshold
            && InTimeOrder(log')
            && |log'| > 0 && |m'.store| > 0
            && m'.store[|m'.store| - 1].time == m'.last
            && log'[|log'| - 1].time == m'.last
  {
    var a := m.alerter.value;
    var stored := m.store + [req];
    var d := Deadline(req.time, m.config.storeWindow);
    var sample := Sample(req.time, |Since(stored, Deadline(req.time, m.config.alertWindow))|);
    AcceptWithAlerter(m, policy, req);
    var m' := Accept(m, policy, req).value.monitor;
    assert m'.store == Clean(stored, d) && m'.last == req.time;
    assert m'.alerter.value.log == a.log + [sample];
    assert m.config.alertWindow > 0 && d < req.time;
    assert stored[|stored| - 1] == req;
    CleanKeepsNewest(stored, d);
    SamplesBeforeRequest(m, req);
    AppendInOrder(a.log, sample);
    assert (a.log + [sample])[|a.log|] == sample;
  }

  /** A sample no older than every earlier one keeps the history in time order. */
  lemma AppendInOrder(log: seq<Sample>, sample: Sample)
    requires InTimeOrder(log)
    requires forall i :: 0 <= i < |log| ==> log[i].time <= sample.time
    ensures InTimeOrder(log + [sample])
  {
  }

  /**
   * What `Accept` feeds the alerter: one sample at the request's time, no
   * earlier than any sample before it, whose count is the number of stored
   * requests newer than the alert window's start. It counts the new request,
   * so it is at least one. The alert returned is the alerter's answer to it.
   */
  lemma AcceptFeedsAlerter(m: Monitor, policy: AlertPolicy, req: Request)
    requires Valid(m) && m.alerter.Some?
    requires Accept(m, policy, req).Success?
    ensures var log := m.alerter.value.log;
            var step := Accept(m, policy, req).value;
            var log' := step.monitor.alerter.value.log;
            var sample := log'[|log'| - 1];
            && log' == log + [sample]
            && sample.time == req.time
            && (forall i :: 0 <= i < |log| ==> log[i].time <= sample.time)
            && sample.count == |Since(m.store + [req], req.time - m.config.alertWindow)|
            && 1 <= sample.count
            && step.alert == policy.check(m.alerter.value, sample)
  {
    var a := m.alerter.value;
    var log := a.log;
    var stored := m.store + [req];
    var d := Deadline(req.time, m.config.alertWindow);
    var sample := Sample(req.time, |Since(stored, d)|);
    AcceptWithAlerter(m, policy, req);
    var step := Accept(m, policy, req).value;
    var log' := step.monitor.alerter.value.log;
    assert log' == log + [sample];
    assert log'[|log'| - 1] == sample;
    assert step.alert == policy.check(a, sample);
    NewestSince(m.store, req, d);
    SamplesBeforeRequest(m, req);
  }

  /** The alerter of a valid monitor has no sample newer than a request the store takes. */
  lemma SamplesBeforeRequest(m: Monitor, req: Request)
    requires Valid(m) && m.alerter.Some?
    requires AddRequest(m.store, req).Success?
    ensures forall i :: 0 <= i < |m.alerter.value.log| ==> m.alerter.value.log[i].time <= req.time
  {
    var log := m.alerter.value.log;
    if |log| > 0 {
      assert log[|log| - 1].time == m.last == m.store[|m.store| - 1].time;
      assert forall i :: 0 <= i < |log| ==> log[i].time <= log[|log| - 1].time;
    }
  }

  /** A request the store takes is accepted: the store is cleaned to the store window and `last` moves to it. */
  lemma AcceptStores(m: Monitor, policy: AlertPolicy, req: Request)
    requires AddRequest(m.store, req).Success?
    ensures Accept(m, policy, req).Success?
    ensures Accept(m, policy, req).value.monitor.store
              == Clean(m.store + [req], Deadline(req.time, m.config.storeWindow))
    ensures Accept(m, policy, req).value.monitor.last == req.time
  {
  }

  /** What `Accept` computes when the store takes the request and an alerter exists. */
  lemma AcceptWithAlerter(m: Monitor, policy: AlertPolicy, req: Request)
    requires m.alerter.Some? && AddRequest(m.store, req).Success?
    ensures Accept(m, policy, req).Success?
    ensures var a := m.alerter.value;
            var stored := m.store + [req];
            var sample := Sample(req.time, |Since(stored, Deadline(req.time, m.config.alertWindow))|);
            var kept := Clean(stored, Deadline(req.time, m.config.storeWindow));
            && Accept(m, policy, req).value.monitor == Monitor(m.config, kept, Some(a.(log := a.log + [sample])), req.time)
            && Accept(m, policy, req).value.alert == policy.check(a, sample)
  {
  }

  /** A request newer than the deadline is selected by `Since` once it is stored last. */
  lemma NewestSince(s: seq<Request>, req: Request, d: int)
    requires d < req.time
    ensures 1 <= |Since(s + [req], d)|
  {
    assert (s + [req])[|s|] == req;
  }

  /**
   * After `Accept` the store is sorted and holds only requests within the
   * store window before the new request; with a positive store window the
   * new request is the newest one kept.
   */
  lemma AcceptKeepsWindow(m: Monitor, policy: AlertPolicy, req: Request)
    requires Valid(m)
    requires Accept(m, policy, req).Success?
    ensures var s := Accept(m, policy, req).value.monitor.store;
            && Sorted(s)
            && (forall i :: 0 <= i < |s| ==> req.time - m.config.storeWindow < s[i].time <= req.time)
            && (m.config.storeWindow > 0 ==> |s| > 0 && s[|s| - 1] == req)
  {
    AcceptStores(m, policy, req);
    var stored := m.store + [req];
    var d := Deadline(req.time, m.config.storeWindow);
    CleanKeepsNewer(stored, d);
    StoredBeforeNewest(m.store, req);
    if m.config.storeWindow > 0 {
      CleanKeepsNewest(stored, d);
    }
  }

  /** The alerter of `m'` has been fed everything the alerter of `m` was fed, and maybe more. */
  ghost predicate Extends(m: Monitor, m': Monitor)
  {
    m.alerter.Some? ==>
      && m'.alerter.Some?
      && |m.alerter.value.log| <= |m'.alerter.value.log|
      && m'.alerter.value.log[..|m.alerter.value.log|] == m.alerter.value.log
  }

  /** Extensions of the sample log chain, as `ReplayFeedsInOrder` needs from one line to the next. */
  lemma ExtendsTransitive(m1: Monitor, m2: Monitor, m3: Monitor)
    requires Extends(m1, m2) && Extends(m2, m3)
    ensures Extends(m1, m3)
  {
    if m1.alerter.Some? {
      var log1, log2, log3 := m1.alerter.value.log, m2.alerter.value.log, m3.alerter.value.log;
      assert log3[..|log1|] == log3[..|log2|][..|log1|];
    }
  }

  /** The monitor after offering it one line, whether or not the line is taken. */
  function Offer(m: Monitor, c: Codecs, policy: AlertPolicy, line: string): (r: Monitor)
    ensures AddLine(m, c, policy, line).Failure? ==> r == m
    ensures AddLine(m, c, policy, line).Success? ==> r == AddLine(m, c, policy, line).value.monitor
    ensures r.config == m.config
    ensures r.alerter.Some? <==> m.alerter.Some?
  {
    var r := AddLine(m, c, policy, line);
    if r.Success? then r.value.monitor else m
  }

  /** One line offered keeps the monitor valid and only appends to the alerter's history. */
  lemma OfferExtendsLog(m: Monitor, c: Codecs, policy: AlertPolicy, line: string)
    requires Valid(m)
    ensures Valid(Offer(m, c, policy, line))
    ensures Extends(m, Offer(m, c, policy, line))
  {
    var r := AddLine(m, c, policy, line);
    if r.Success? {
      var req := Parse(c, line).value;
      AcceptKeepsValid(m, policy, req);
      if m.alerter.Some? {
        AcceptFeedsAlerter(m, policy, req);
      }
    }
  }

  /** The lines of a log offered in order; the ones `AddLine` reports are skipped. */
  function Replay(m: Monitor, c: Codecs, policy: AlertPolicy, lines: seq<string>): (r: Monitor)
    ensures r.config == m.config
    ensures r.alerter.Some? <==> m.alerter.Some?
    ensures (forall k :: 0 <= k < |lines| ==> AddLine(m, c, policy, lines[k]).Failure?) ==> r == m
    decreases |lines|
  {
    if |lines| == 0 then m
    else Replay(Offer(m, c, policy, lines[0]), c, policy, lines[1..])
  }

  /** Replaying one more line offers it to the monitor the earlier lines left. */
  lemma {:induction false} ReplaySnoc(m: Monitor, c: Codecs, policy: AlertPolicy, lines: seq<string>, line: string)
    ensures Replay(m, c, policy, lines + [line]) == Offer(Replay(m, c, policy, lines), c, policy, line)
    decreases |lines|
  {
    if |lines| == 0 {
      assert lines + [line] == [line] && [line][1..] == [];
    } else {
      assert (lines + [line])[0] == lines[0] && (lines + [line])[1..] == lines[1..] + [line];
      ReplaySnoc(Offer(m, c, policy, lines[0]), c, policy, lines[1..], line);
    }
  }

  /**
   * Over any sequence of lines the monitor stays valid, and the alerter's
   * history only grows: every sample ever fed to it is in time order.
   */
  lemma {:induction false} ReplayFeedsInOrder(m: Monitor, c: Codecs, policy: AlertPolicy, lines: seq<string>)
    requires Valid(m)
    ensures Valid(Replay(m, c, policy, lines))
    ensures Extends(m, Replay(m, c, policy, lines))
    ensures m.alerter.Some? ==> InTimeOrder(Replay(m, c, policy, lines).alerter.value.log)
    decreases |lines|
  {
    if |lines| > 0 {
      var next := Offer(m, c, policy, lines[0]);
      OfferExtendsLog(m, c, policy, lines[0]);
      ReplayFeedsInOrder(next, c, policy, lines[1..]);
      ExtendsTransitive(m, next, Replay(next, c, policy, lines[1..]));
    }
  }

  /**
   * `Monitor.Stats`: statistics over the stored requests newer than
   * `window` before the last request: the tallies and, for a positive
   * `top`, the rankings of their sources, users and sections.
   */
  method Stats(m: Monitor, c: Codecs, window: int, top: int) returns (s: Statistics.Stats)
    ensures var recent := Since(m.store, Deadline(m.last, window));
            && s.count == |recent|
            && s.ipv6 == Statistics.CountMatching(recent, IsIPv6)
            && s.http2 == Statistics.CountMatching(recent, IsHTTP2)
            && s.serverError == Statistics.CountMatching(recent, IsServerError)
            && (top <= 0 ==> s.topSources == [] && s.topUsers == [] && s.topSection == [])
    ensures var recent := Since(m.store, Deadline(m.last, window));
            top > 0 ==>
              && Statistics.Ranked(Statistics.CountKeys(Statistics.SourceKeys(c, recent)), top, s.topSources)
              && Statistics.Ranked(Statistics.CountKeys(Statistics.UserKeys(recent)), top, s.topUsers)
              && Statistics.Ranked(Statistics.CountKeys(Statistics.SectionKeys(recent)), top, s.topSection)
    ensures Valid(m) ==> forall i :: 0 <= i < |m.store| ==>
              (i >= |m.store| - s.count <==> m.store[i].time > m.last - window)
  {
    var recent := Since(m.store, Deadline(m.last, window));
    s := Statistics.NewStats(c, recent, top);
    if Valid(m) {
      SinceExact(m.store, Deadline(m.last, window));
    }
  }

  /** `Monitor.Alerts`: nil without an alerter, else whatever the alerter lists. */
  function Alerts(m: Monitor, policy: AlertPolicy): (r: Option<seq<Alert>>)
    ensures r.None? <==> m.alerter.None?
    ensures r.Some? ==> r.value == policy.alerts(m.alerter.value)
  {
    match m.alerter
    case None => None
    case Some(a) => Some(policy.alerts(a))
  }

  /** `Monitor.Last`: the time of the last request added. */
  function Last(m: Monitor): int
  {
    m.last
  }
}

=== FILE: parser.dfy ===
/**
 * The W3C Common Logfile Format parser (parser.go): a line is cut at the
 * first occurrence of each separator in turn, then the ip, date, code and
 * size fields are converted by the library parsers.
 */
module Parser {
  import opened Wrappers
  import opened Text
  import opened LogFormat
  import opened Requests

  /** Why a line was rejected; one constructor per message of parser.go. */
  datatype ParseError =
    | TooShort
    | SeparatorNotFound(sep: string)
    | InvalidIP
    | InvalidDate
    | InvalidCode
    | InvalidSize

  /** The text before the separator and the rest of the line after it. */
  datatype Cut = Cut(part: string, rest: string)

  /**
   * Consume the line up to the first occurrence of `sep`. The cut succeeds
   * exactly when `sep` occurs somewhere but not at the very start, so the
   * length guard of the source only ever changes which error is reported.
   */
  function ParseNext(line: string, sep: string): (r: Result<Cut, ParseError>)
    ensures r.Success? <==> !Occurs(line, sep, 0) && exists i :: 0 < i && Occurs(line, sep, i)
    ensures r.Success? ==> r.value.part + sep + r.value.rest == line
    ensures r.Success? ==> |r.value.part| > 0
    ensures r.Success? ==> forall j :: 0 <= j < |r.value.part| ==> !Occurs(line, sep, j)
    ensures |line| < |sep| + 1 ==> r == Failure(TooShort)
    ensures r.Failure? ==> r.error in {TooShort, SeparatorNotFound(sep)}
    ensures |line| >= |sep| + 1 && r.Failure? ==> r.error == SeparatorNotFound(sep)
  {
    if |line| < |sep| + 1 then Failure(TooShort)
    else
      var i := Index(line, sep);
      if i <= 0 then Failure(SeparatorNotFound(sep))
      else
        assert line == line[..i] + sep + line[i + |sep|..];
        Success(Cut(line[..i], line[i + |sep|..]))
  }

  /** The pieces of a line cut at a list of separators, and what follows the last one. */
  datatype Pieces = Pieces(parts: seq<string>, rest: string)

  /**
   * Each part ends where its separator first occurs in what is left of the
   * line once the earlier parts and separators are consumed.
   */
  predicate CutsAtFirst(parts: seq<string>, seps: seq<string>, rest: string)
    requires |parts| == |seps|
  {
    forall k, j :: 0 <= k < |seps| && 0 <= j < |parts[k]| ==>
      !Occurs(JoinWith(parts[k..], seps[k..], rest), seps[k], j)
  }

  /** A first cut followed by first cuts of the rest are first cuts of the whole line. */
  lemma CutsAtFirstCons(line: string, part: string, seps: seq<string>, parts: seq<string>, rest: string)
    requires |seps| > 0 && |parts| == |seps| - 1
    requires line == part + seps[0] + JoinWith(parts, seps[1..], rest)
    requires forall j :: 0 <= j < |part| ==> !Occurs(line, seps[0], j)
    requires CutsAtFirst(parts, seps[1..], rest)
    ensures CutsAtFirst([part] + parts, seps, rest)
  {
    var all := [part] + parts;
    forall k, j | 0 <= k < |seps| && 0 <= j < |all[k]|
      ensures !Occurs(JoinWith(all[k..], seps[k..], rest), seps[k], j)
    {
      if k == 0 {
        assert all[k..] == all && seps[k..] == seps && all[1..] == parts;
      } else {
        assert all[k..] == parts[k - 1..] && seps[k..] == seps[1..][k - 1..];
        assert all[k] == parts[k - 1] && seps[k] == seps[1..][k - 1];
      }
    }
  }

  /** Dropping the first cut leaves first cuts of the rest of the line. */
  lemma CutsAtFirstTail(parts: seq<string>, seps: seq<string>, rest: string)
    requires |seps| > 0 && |parts| == |seps|
    requires CutsAtFirst(parts, seps, rest)
    ensures CutsAtFirst(parts[1..], seps[1..], rest)
  {
    forall k, j | 0 <= k < |seps| - 1 && 0 <= j < |parts[1..][k]|
      ensures !Occurs(JoinWith(parts[1..][k..], seps[1..][k..], rest), seps[1..][k], j)
    {
      assert parts[1..][k..] == parts[k + 1..] && seps[1..][k..] == seps[k + 1..];
      assert parts[1..][k] == parts[k + 1] && seps[1..][k] == seps[k + 1];
    }
  }

  /**
   * A line has at most one decomposition into first cuts: the parts and
   * the remainder are determined by the line and the separators.
   */
  lemma {:induction false} CutsAreUnique(line: string, seps: seq<string>,
                                         parts1: seq<string>, rest1: string,
                                         parts2: seq<string>, rest2: string)
    requires |parts1| == |seps| && |parts2| == |seps|
    requires JoinWith(parts1, seps, rest1) == line && JoinWith(parts2, seps, rest2) == line
    requires CutsAtFirst(parts1, seps, rest1) && CutsAtFirst(parts2, seps, rest2)
    ensures parts1 == parts2 && rest1 == rest2
    decreases |seps|
  {
    if |seps| > 0 {
      var a, b, sep := parts1[0], parts2[0], seps[0];
      var tail1 := JoinWith(parts1[1..], seps[1..], rest1);
      var tail2 := JoinWith(parts2[1..], seps[1..], rest2);
      assert line == a + sep + tail1 && line == b + sep + tail2;
      assert parts1[0..] == parts1 && parts2[0..] == parts2 && seps[0..] == seps;
      assert line[|a|..|a| + |sep|] == sep && line[|b|..|b| + |sep|] == sep;
      assert Occurs(line, sep, |a|) && Occurs(line, sep, |b|);
      assert |a| == |b|;
      assert a == line[..|a|] == b;
      assert tail1 == line[|a| + |sep|..] == tail2;
      CutsAtFirstTail(parts1, seps, rest1);
      CutsAtFirstTail(parts2, seps, rest2);
      CutsAreUnique(tail1, seps[1..], parts1[1..], rest1, parts2[1..], rest2);
      assert parts1 == [a] + parts1[1..] && parts2 == [b] + parts2[1..];
    }
  }

  /** Apply `ParseNext` once per separator, each time to what the previous cut left. */
  function SplitAll(line: string, seps: seq<string>): (r: Result<Pieces, ParseError>)
    ensures r.Success? ==> |r.value.parts| == |seps|
    ensures r.Success? ==> JoinWith(r.value.parts, seps, r.value.rest) == line
    ensures r.Success? ==> CutsAtFirst(r.value.parts, seps, r.value.rest)
    ensures r.Success? ==> forall k :: 0 <= k < |seps| ==> |r.value.parts[k]| > 0
    ensures r.Success? ==> forall k :: 0 <= k < |seps| ==> Contains(line, seps[k])
    ensures r.Failure? ==> r.error == TooShort || (r.error.SeparatorNotFound? && r.error.sep in seps)
    decreases |seps|
  {
    if |seps| == 0 then Success(Pieces([], line))
    else
      match ParseNext(line, seps[0])
      case Failure(e) => Failure(e)
      case Success(cut) =>
        match SplitAll(cut.rest, seps[1..])
        case Failure(e) => Failure(e)
        case Success(tail) =>
          ConsPieces(line, seps, cut, tail);
          Success(Pieces([cut.part] + tail.parts, tail.rest))
  }

  /** A first cut in front of the pieces of the rest of the line are pieces of the whole line. */
  lemma {:induction false} ConsPieces(line: string, seps: seq<string>, cut: Cut, tail: Pieces)
    requires |seps| > 0 && ParseNext(line, seps[0]) == Success(cut)
    requires |tail.parts| == |seps| - 1
    requires JoinWith(tail.parts, seps[1..], tail.rest) == cut.rest
    requires CutsAtFirst(tail.parts, seps[1..], tail.rest)
    requires forall k :: 0 <= k < |seps| - 1 ==> |tail.parts[k]| > 0
    requires forall k :: 0 <= k < |seps| - 1 ==> Contains(cut.rest, seps[1..][k])
    ensures |[cut.part] + tail.parts| == |seps|
    ensures JoinWith([cut.part] + tail.parts, seps, tail.rest) == line
    ensures CutsAtFirst([cut.part] + tail.parts, seps, tail.rest)
    ensures forall k :: 0 <= k < |seps| ==> |([cut.part] + tail.parts)[k]| > 0
    ensures forall k :: 0 <= k < |seps| ==> Contains(line, seps[k])
  {
    var parts := [cut.part] + tail.parts;
    assert parts[0] == cut.part && parts[1..] == tail.parts;
    ContainsLifts(cut.part + seps[0], cut.rest, seps[1..]);
    assert Occurs(line, seps[0], |cut.part|);
    CutsAtFirstCons(line, cut.part, seps, tail.parts, tail.rest);
  }

  /** Separators found in the rest of a line are found in the whole line. */
  lemma ContainsLifts(prefix: string, s: string, seps: seq<string>)
    requires forall k :: 0 <= k < |seps| ==> Contains(s, seps[k])
    ensures forall k :: 0 <= k < |seps| ==> Contains(prefix + s, seps[k])
  {
    forall k | 0 <= k < |seps|
      ensures Contains(prefix + s, seps[k])
    {
      var i :| Occurs(s, seps[k], i);
      OccursInSuffix(prefix, s, seps[k], i);
    }
  }

  /** The characters `strings.TrimRight` removes from the end of a line. */
  const LineBreaks: set<char> := {'\r', '\n'}

  /**
   * The structural half of `Parse`: trim trailing line breaks, then cut at
   * the seven separators of the line format.
   */
  function Split(line: string): (r: Result<Fields, ParseError>)
    ensures r.Success? ==> Layout(r.value) == TrimRight(line, LineBreaks)
    ensures r.Success? ==> CutsAtFirst(Leading(r.value), Separators, r.value.size)
    ensures r.Success? ==> forall k :: 0 <= k < |Separators| ==> |Leading(r.value)[k]| > 0
    ensures r.Success? ==> EndsClean(r.value.size)
    ensures r.Failure? ==> r.error == TooShort || (r.error.SeparatorNotFound? && r.error.sep in Separators)
    ensures (exists k :: 0 <= k < |Separators| && !Contains(TrimRight(line, LineBreaks), Separators[k]))
            ==> r.Failure?
  {
    match SplitAll(TrimRight(line, LineBreaks), Separators)
    case Failure(e) => Failure(e)
    case Success(p) =>
      LastOfJoin(p.parts, Separators, p.rest);
      Success(FromPieces(p.parts, p.rest))
  }

  /** The size field does not end in a line break, which `TrimRight` would have removed. */
  predicate EndsClean(size: string)
  {
    |size| == 0 || size[|size| - 1] !in LineBreaks
  }

  /**
   * The converse of `Split`: fields that are non-empty before each
   * separator, hold no earlier occurrence of it, and end cleanly make up a
   * line that splits back into exactly those fields.
   */
  lemma SplitOfLayout(f: Fields)
    requires forall k :: 0 <= k < |Separators| ==> |Leading(f)[k]| > 0
    requires CutsAtFirst(Leading(f), Separators, f.size)
    requires EndsClean(f.size)
    ensures Split(Layout(f)) == Success(f)
  {
    var line := Layout(f);
    LastOfJoin(Leading(f), Separators, f.size);
    assert TrimRight(line, LineBreaks) == line;
    SplitAllOfJoin(Leading(f), Separators, f.size);
    var g := FromPieces(Leading(f), f.size);
    assert Leading(g)[0] == f.ip && Leading(g)[1] == f.user && Leading(g)[2] == f.date;
    assert Leading(g)[3] == f.verb && Leading(g)[4] == f.path && Leading(g)[5] == f.version;
    assert Leading(g)[6] == f.code;
  }

  /** Parts lacking the first character of their separator end where it first occurs. */
  lemma {:induction false} CutsAtFirstWhenLacking(parts: seq<string>, seps: seq<string>, rest: string)
    requires |parts| == |seps|
    requires forall k :: 0 <= k < |seps| ==> |seps[k]| > 0
    requires forall k, j :: 0 <= k < |seps| && 0 <= j < |parts[k]| ==> parts[k][j] != seps[k][0]
    ensures CutsAtFirst(parts, seps, rest)
  {
    forall k, j | 0 <= k < |seps| && 0 <= j < |parts[k]|
      ensures !Occurs(JoinWith(parts[k..], seps[k..], rest), seps[k], j)
    {
      var s := JoinWith(parts[k..], seps[k..], rest);
      JoinStep(parts, seps, rest, k);
      assert s[j] == parts[k][j];
      assert j + |seps[k]| <= |s| ==> s[j..j + |seps[k]|][0] == s[j];
    }
  }

  /** Such a line is accepted exactly when its fields convert, as `Decode` says. */
  lemma ParseOfLayout(c: Codecs, f: Fields)
    requires forall k :: 0 <= k < |Separators| ==> |Leading(f)[k]| > 0
    requires CutsAtFirst(Leading(f), Separators, f.size)
    requires EndsClean(f.size)
    ensures Parse(c, Layout(f)) == Decode(c, f)
  {
    SplitOfLayout(f);
  }

  /** A line with a non-empty part before the first occurrence of `sep` is cut there. */
  lemma {:induction false} ParseNextAtFirst(line: string, part: string, sep: string, rest: string)
    requires line == part + sep + rest && |part| > 0
    requires forall j :: 0 <= j < |part| ==> !Occurs(line, sep, j)
    ensures ParseNext(line, sep) == Success(Cut(part, rest))
  {
    assert line[|part|..|part| + |sep|] == sep;
    assert Occurs(line, sep, |part|);
    assert line[..|part|] == part && line[|part| + |sep|..] == rest;
  }

  /** The first part of first cuts holds no occurrence of the first separator. */
  lemma {:induction false} FirstCut(parts: seq<string>, seps: seq<string>, rest: string)
    requires |parts| == |seps| > 0
    requires CutsAtFirst(parts, seps, rest)
    ensures forall j :: 0 <= j < |parts[0]| ==> !Occurs(JoinWith(parts, seps, rest), seps[0], j)
  {
    assert parts[0..] == parts && seps[0..] == seps;
  }

  /**
   * The converse of `SplitAll`: non-empty parts cut at first occurrences
   * are recovered from the line they join into.
   */
  lemma {:induction false} SplitAllOfJoin(parts: seq<string>, seps: seq<string>, rest: string)
    requires |parts| == |seps|
    requires forall k :: 0 <= k < |seps| ==> |parts[k]| > 0
    requires CutsAtFirst(parts, seps, rest)
    ensures SplitAll(JoinWith(parts, seps, rest), seps) == Success(Pieces(parts, rest))
    decreases |seps|
  {
    if |seps| > 0 {
      var line := JoinWith(parts, seps, rest);
      var tail := JoinWith(parts[1..], seps[1..], rest);
      FirstCut(parts, seps, rest);
      ParseNextAtFirst(line, parts[0], seps[0], tail);
      CutsAtFirstTail(parts, seps, rest);
      SplitAllOfJoin(parts[1..], seps[1..], rest);
      assert SplitAll(tail, seps[1..]) == Success(Pieces(parts[1..], rest));
      assert [parts[0]] + parts[1..] == parts;
    }
  }

  /**
   * The converting half of `Parse`: the ip, date, code and size fields go
   * through the library parsers, in that order, and the section is derived
   * from the path.
   */
  function Decode(c: Codecs, f: Fields): (r: Result<Request, ParseError>)
    ensures r.Success? <==> && c.parseIP(f.ip).Some? && c.parseTime(f.date).Some?
                            && c.parseInt(f.code).Some? && c.parseInt(f.size).Some?
    ensures c.parseIP(f.ip).None? ==> r == Failure(InvalidIP)
    ensures c.parseIP(f.ip).Some? && c.parseTime(f.date).None? ==> r == Failure(InvalidDate)
    ensures c.parseIP(f.ip).Some? && c.parseTime(f.date).Some? && c.parseInt(f.code).None?
            ==> r == Failure(InvalidCode)
    ensures c.parseIP(f.ip).Some? && c.parseTime(f.date).Some? && c.parseInt(f.code).Some? && c.parseInt(f.size).None?
            ==> r == Failure(InvalidSize)
    ensures r.Success? ==> r.value.sourceIP.Some? && r.value.section == ParseSection(r.value.path)
    ensures r.Success? && Canonical(c, f) ==> FieldsOf(c, r.value) == f
  {
    match c.parseIP(f.ip)
    case None => Failure(InvalidIP)
    case Some(ip) =>
      match c.parseTime(f.date)
      case None => Failure(InvalidDate)
      case Some(date) =>
        match c.parseInt(f.code)
        case None => Failure(InvalidCode)
        case Some(code) =>
          match c.parseInt(f.size)
          case None => Failure(InvalidSize)
          case Some(size) =>
            Success(Request(Some(ip), f.user, date, f.verb, f.path, ParseSection(f.path),
                            f.version, code, size))
  }

  /**
   * `W3CParser.Parse`. A line lacking any separator is rejected, no request
   * is built when a field does not convert, and when the line spells each
   * converted field as the formatters do, the request prints back as the
   * line without its trailing line breaks.
   */
  function Parse(c: Codecs, line: string): (r: Result<Request, ParseError>)
    ensures (exists k :: 0 <= k < |Separators| && !Contains(TrimRight(line, LineBreaks), Separators[k]))
            ==> r.Failure?
    ensures r.Success? ==> r.value.sourceIP.Some? && r.value.section == ParseSection(r.value.path)
    ensures Split(line).Success? && r.Success? && Canonical(c, Split(line).value)
            ==> String(c, r.value) == TrimRight(line, LineBreaks)
    ensures Split(line).Failure? ==> r == Failure(Split(line).error)
    ensures Split(line).Success? ==> r == Decode(c, Split(line).value)
  {
    match Split(line)
    case Failure(e) => Failure(e)
    case Success(f) => Decode(c, f)
  }

  /**
   * The first path segment: drop one leading "/", then keep up to the next
   * "/" (a path whose second character is also "/" is kept whole).
   */
  function ParseSection(path: string): (section: string)
    ensures |section| > 0 && section[0] == '/'
    ensures path == "" || path == "/" ==> section == "/"
    ensures HasPrefix(TrimPrefix(path, "/"), section[1..])
    ensures var p := TrimPrefix(path, "/");
            |p| > 0 && p[0] == '/' ==> section == "/" + p
    ensures var p := TrimPrefix(path, "/");
            (|p| == 0 || p[0] != '/') ==>
              && '/' !in section[1..]
              && (|section| - 1 == |p| || p[|section| - 1] == '/')
    ensures HasPrefix(path, "/") ==> HasPrefix(path, section)
  {
    var p := TrimPrefix(path, "/");
    var i := Index(p, "/");
    if i <= 0 then
      assert i == -1 ==> forall j :: 0 <= j < |p| ==> p[j..j + 1] == [p[j]] && !Occurs(p, "/", j);
      "/" + p
    else
      assert forall j :: 0 <= j < i ==> p[j..j + 1] == [p[j]] && !Occurs(p, "/", j);
      assert p[i..i + 1] == "/";
      "/" + p[..i]
  }
}

=== FILE: requests.dfy ===
/**
 * One HTTP access-log entry and its derived predicates (request.go).
 */
module Requests {
  import opened Wrappers
  import opened Text
  import LogFormat

  /**
   * A parsed source address. Only whether it has a 4-byte form matters to
   * the model; the address itself is opaque.
   */
  datatype IP = V4(addr: nat) | V6(addr: nat)

  /** Go's `net.IP.To4`: the 4-byte form, or nil for a genuine IPv6 address. */
  function To4(ip: IP): (r: Option<nat>)
    ensures r.None? <==> ip.V6?
    ensures r.Some? ==> r.value == ip.addr
  {
    match ip
    case V4(a) => Some(a)
    case V6(_) => None
  }

  /**
   * A log entry. Times are integers (one unit per tick of Go's `time.Time`);
   * `sourceIP == None` is Go's nil `net.IP`.
   */
  datatype Request = Request(
    sourceIP: Option<IP>,
    user: string,
    time: int,
    verb: string,
    path: string,
    section: string,
    httpVersion: string,
    code: int,
    size: int)

  /** The request was made over HTTP/2: its version string starts with "HTTP/2". */
  predicate IsHTTP2(req: Request): (r: bool)
    ensures r <==> "HTTP/2" <= req.httpVersion
  {
    HasPrefix(req.httpVersion, "HTTP/2")
  }

  /** The request came from an IPv6 connection: a known address with no 4-byte form. */
  predicate IsIPv6(req: Request): (r: bool)
    ensures r <==> req.sourceIP.Some? && req.sourceIP.value.V6?
  {
    match req.sourceIP
    case None => false
    case Some(ip) => To4(ip).None?
  }

  /** The response status was a server error: `code / 100 >= 5`, that is, `code >= 500`. */
  predicate IsServerError(req: Request): (r: bool)
    ensures r <==> req.code / 100 >= 5
  {
    req.code >= 500
  }

  /**
   * The library conversions between text and values that the parser and
   * the formatter call: `net.ParseIP` / `IP.String`, `time.Parse` /
   * `Time.Format` with the W3C date layout, and `strconv.Atoi` / `%d`.
   * They are not part of this model and enter it as parameters.
   */
  datatype Codecs = Codecs(
    parseIP: string -> Option<IP>,
    formatIP: IP -> string,
    parseTime: string -> Option<int>,
    formatTime: int -> string,
    parseInt: string -> Option<int>,
    formatInt: int -> string)

  /** `s` is the formatter's spelling of the address it parses to, or not an address at all. */
  ghost predicate SpellsIP(c: Codecs, s: string)
  {
    c.parseIP(s).Some? ==> c.formatIP(c.parseIP(s).value) == s
  }

  /** `s` is the formatter's spelling of the time it parses to, or not a date at all. */
  ghost predicate SpellsTime(c: Codecs, s: string)
  {
    c.parseTime(s).Some? ==> c.formatTime(c.parseTime(s).value) == s
  }

  /** `s` is `%d` of the integer it parses to, or not an integer at all. */
  ghost predicate SpellsInt(c: Codecs, s: string)
  {
    c.parseInt(s).Some? ==> c.formatInt(c.parseInt(s).value) == s
  }

  /**
   * Each converted field of one line is spelled the way the formatters
   * spell its value. Go's conversions accept other spellings too ("007"
   * for 7, a zone offset other than the formatter's), so this is a
   * property of the line, not of the conversions.
   */
  ghost predicate Canonical(c: Codecs, f: LogFormat.Fields)
  {
    SpellsIP(c, f.ip) && SpellsTime(c, f.date) && SpellsInt(c, f.code) && SpellsInt(c, f.size)
  }

  /** `net.IP.String`, which spells a nil address "<nil>". */
  function IPText(c: Codecs, ip: Option<IP>): (r: string)
    ensures ip.None? ==> r == "<nil>"
    ensures forall s :: c.parseIP(s).Some? && ip == c.parseIP(s) && SpellsIP(c, s) ==> r == s
  {
    match ip
    case None => "<nil>"
    case Some(a) => c.formatIP(a)
  }

  /** The text fields `String` prints, in line order. */
  function FieldsOf(c: Codecs, req: Request): LogFormat.Fields
  {
    LogFormat.Fields(
      IPText(c, req.sourceIP), req.user, c.formatTime(req.time), req.verb,
      req.path, req.httpVersion, c.formatInt(req.code), c.formatInt(req.size))
  }

  /**
   * The request in W3C Common Log Format. The line is the fields joined by
   * exactly the separators the parser splits on.
   */
  function String(c: Codecs, req: Request): (line: string)
    ensures line == LogFormat.Layout(FieldsOf(c, req))
  {
    LogFormat.LayoutTemplate(FieldsOf(c, req));
    IPText(c, req.sourceIP) + " - " + (req.user + " [" + (c.formatTime(req.time) + "] \""
      + (req.verb + " " + (req.path + " " + (req.httpVersion + "\" "
      + (c.formatInt(req.code) + " " + c.formatInt(req.size)))))))
  }
}

=== FILE: stats.dfy ===
/**
 * Summary statistics over a slice of requests (stats.go): integer tallies
 * and three rankings produced by a key counter.
 */
module Statistics {
  import opened Requests

  /** `CounterValue`: a key and how many times it was counted. */
  datatype Entry = Entry(key: string, count: nat)

  /** `counter.counts`. A key absent from the map has count zero, as in a Go map. */
  type Counter = map<string, nat>

  /** `counter.incr`: one more occurrence of `key`. */
  function Incr(c: Counter, key: string): (r: Counter)
    ensures r.Keys == c.Keys + {key}
    ensures r[key] == (if key in c then c[key] else 0) + 1
    ensures forall k :: k in c && k != key ==> r[k] == c[k]
  {
    c[key := (if key in c then c[key] else 0) + 1]
  }

  /**
   * A fresh counter incremented once per key, in order. Each key's count is
   * its number of occurrences in the list.
   */
  function CountKeys(keys: seq<string>): (c: Counter)
    ensures forall k :: k in c <==> k in keys
    ensures forall k :: k in c ==> c[k] == multiset(keys)[k]
    decreases |keys|
  {
    if |keys| == 0 then map[]
    else
      var init, last := keys[..|keys| - 1], keys[|keys| - 1];
      assert keys == init + [last];
      Incr(CountKeys(init), last)
  }

  /** The number of requests satisfying `p`, counted as the loop of `NewStats` does. */
  function CountMatching(reqs: seq<Request>, p: Request -> bool): (n: nat)
    ensures n <= |reqs|
    decreases |reqs|
  {
    if |reqs| == 0 then 0
    else CountMatching(reqs[..|reqs| - 1], p) + (if p(reqs[|reqs| - 1]) then 1 else 0)
  }

  /** The tally is the number of positions whose request satisfies `p`. */
  lemma {:induction false} CountMatchingIsCardinality(reqs: seq<Request>, p: Request -> bool)
    ensures CountMatching(reqs, p) == |set i | 0 <= i < |reqs| && p(reqs[i])|
    decreases |reqs|
  {
    if |reqs| > 0 {
      var n := |reqs|;
      var init := reqs[..n - 1];
      CountMatchingIsCardinality(init, p);
      var before := set i | 0 <= i < n - 1 && p(init[i]);
      var all := set i | 0 <= i < n && p(reqs[i]);
      var last: set<int> := if p(reqs[n - 1]) then {n - 1} else {};
      forall i
        ensures i in all <==> i in before + last
      {
        if 0 <= i < n - 1 {
          assert init[i] == reqs[i];
        }
      }
      assert all == before + last;
      assert before !! last;
    }
  }

  /** Keys are pairwise different. */
  predicate DistinctKeys(r: seq<Entry>)
  {
    forall i, j :: 0 <= i < j < |r| ==> r[i].key != r[j].key
  }

  /** `CounterList.Less` order: counts never decrease along the list. */
  predicate AscendingCounts(r: seq<Entry>)
  {
    forall i, j :: 0 <= i < j < |r| ==> r[i].count <= r[j].count
  }

  /** Some entry of `r` has key `k`. */
  ghost predicate Listed(r: seq<Entry>, k: string)
  {
    exists i :: 0 <= i < |r| && r[i].key == k
  }

  /**
   * What `counter.top(n)` returns: min(n, number of keys) entries with
   * distinct keys and their exact counts, in ascending count order, and no
   * key left out has a smaller count than one listed. Ties may come in any
   * order, as `sort.Sort` over Go's map iteration order leaves them.
   */
  ghost predicate Ranked(c: Counter, n: nat, r: seq<Entry>)
  {
    && |r| == (if n < |c| then n else |c|)
    && DistinctKeys(r)
    && (forall i :: 0 <= i < |r| ==> r[i].key in c && r[i].count == c[r[i].key])
    && AscendingCounts(r)
    && (forall i, k :: 0 <= i < |r| && k in c && !Listed(r, k) ==> r[i].count <= c[k])
  }

  /** Every non-empty set of keys has a key of least count. */
  lemma LeastExists(c: Counter, keys: set<string>)
    requires keys != {} && keys <= c.Keys
    ensures exists k :: k in keys && forall k' :: k' in keys ==> c[k] <= c[k']
  {
    var x :| x in keys;
    if keys != {x} {
      LeastExists(c, keys - {x});
      var m :| m in keys - {x} && forall k' :: k' in keys - {x} ==> c[m] <= c[k'];
      if c[x] < c[m] {
        assert forall k' :: k' in keys ==> c[x] <= c[k'];
      } else {
        assert forall k' :: k' in keys ==> c[m] <= c[k'];
      }
    }
  }

  /**
   * The state of listing keys in ascending count order: `order` holds the
   * keys already taken, with their counts, and `rest` the keys still to
   * take, none of which has a smaller count than a key already taken.
   */
  ghost predicate Listing(c: Counter, rest: set<string>, order: seq<Entry>)
  {
    && rest <= c.Keys
    && |order| + |rest| == |c|
    && (forall i :: 0 <= i < |order| ==>
          order[i].key in c && order[i].key !in rest && order[i].count == c[order[i].key])
    && (forall k :: k in c && k !in rest ==> Listed(order, k))
    && DistinctKeys(order)
    && AscendingCounts(order)
    && (forall i, k :: 0 <= i < |order| && k in rest ==> order[i].count <= c[k])
  }

  /** An entry with a new key and a count no smaller than any listed keeps a listing distinct and ascending. */
  lemma AppendLeast(order: seq<Entry>, e: Entry)
    requires DistinctKeys(order) && AscendingCounts(order)
    requires forall i :: 0 <= i < |order| ==> order[i].key != e.key && order[i].count <= e.count
    ensures DistinctKeys(order + [e]) && AscendingCounts(order + [e])
  {
    assert forall i :: 0 <= i < |order| ==> (order + [e])[i] == order[i];
    assert (order + [e])[|order|] == e;
  }

  /** Every key listed before is still listed after an entry is appended, and so is the new key. */
  lemma ListedAfterAppend(order: seq<Entry>, e: Entry)
    ensures Listed(order + [e], e.key)
    ensures forall k :: Listed(order, k) ==> Listed(order + [e], k)
  {
    assert (order + [e])[|order|] == e;
    forall k | Listed(order, k)
      ensures Listed(order + [e], k)
    {
      var i :| 0 <= i < |order| && order[i].key == k;
      assert (order + [e])[i] == order[i];
    }
  }

  /** Taking a remaining key of least count extends the listing. */
  lemma TakeLeast(c: Counter, rest: set<string>, order: seq<Entry>, k: string)
    requires Listing(c, rest, order)
    requires k in rest && forall k' :: k' in rest ==> c[k] <= c[k']
    ensures Listing(c, rest - {k}, order + [Entry(k, c[k])])
  {
    var e := Entry(k, c[k]);
    var order' := order + [e];
    var rest' := rest - {k};
    assert |rest'| == |rest| - 1;
    assert forall i :: 0 <= i < |order| ==> order'[i] == order[i];
    assert order'[|order|] == e;
    AppendLeast(order, e);
    ListedAfterAppend(order, e);
    assert forall i :: 0 <= i < |order'| ==>
             order'[i].key in c && order'[i].key !in rest' && order'[i].count == c[order'[i].key];
    assert forall i, k' :: 0 <= i < |order'| && k' in rest' ==> order'[i].count <= c[k'];
    assert forall k' :: k' in c && k' !in rest' ==> Listed(order', k');
  }

  /** A prefix of a complete listing leaves out only keys counted at least as often as those it keeps. */
  lemma CutKeepsLeast(c: Counter, order: seq<Entry>, r: seq<Entry>)
    requires Listing(c, {}, order)
    requires |r| <= |order| && r == order[..|r|]
    ensures forall i, k :: 0 <= i < |r| && k in c && !Listed(r, k) ==> r[i].count <= c[k]
  {
    forall i, k | 0 <= i < |r| && k in c && !Listed(r, k)
      ensures r[i].count <= c[k]
    {
      var j :| 0 <= j < |order| && order[j].key == k;
      assert j >= |r|;
      assert order[i] == r[i];
    }
  }

  /** A complete listing cut to its first n entries is a ranking. */
  lemma CutListing(c: Counter, order: seq<Entry>, n: nat)
    requires Listing(c, {}, order)
    ensures Ranked(c, n, if |order| <= n then order else order[..n])
  {
    var r := if |order| <= n then order else order[..n];
    assert r == order[..|r|];
    assert |r| == (if n < |c| then n else |c|);
    assert forall i :: 0 <= i < |r| ==> r[i] == order[i];
    assert DistinctKeys(r) && AscendingCounts(r);
    CutKeepsLeast(c, order, r);
  }

  /**
   * `counter.top(n)`: list every key with its count, sort by ascending
   * count, keep the first n. The listing and the sort are done together by
   * repeatedly taking a remaining key of least count; which of several tied
   * keys is taken is left open. A negative n would make the source's slice
   * expression panic; its only caller passes a positive n.
   */
  method Top(c: Counter, n: int) returns (r: seq<Entry>)
    requires n >= 0
    ensures Ranked(c, n, r)
  {
    var order: seq<Entry> := [];
    var rest := c.Keys;
    while rest != {}
      invariant Listing(c, rest, order)
      decreases |rest|
    {
      LeastExists(c, rest);
      var k :| k in rest && forall k' :: k' in rest ==> c[k] <= c[k'];
      TakeLeast(c, rest, order, k);
      order := order + [Entry(k, c[k])];
      rest := rest - {k};
    }
    CutListing(c, order, n);
    r := if |order| <= n then order else order[..n];
  }

  /** The sum of the counts of a list of entries. */
  function Total(r: seq<Entry>): nat
  {
    if |r| == 0 then 0 else r[0].count + Total(r[1..])
  }

  /** The keys with every occurrence of `k` removed. */
  function Without(keys: seq<string>, k: string): (r: seq<string>)
    ensures |r| + multiset(keys)[k] == |keys|
    ensures forall k' :: k' != k ==> multiset(r)[k'] == multiset(keys)[k']
    decreases |keys|
  {
    if |keys| == 0 then []
    else
      assert keys == [keys[0]] + keys[1..];
      (if keys[0] == k then [] else [keys[0]]) + Without(keys[1..], k)
  }

  /**
   * Entries with distinct keys, each carrying its key's number of
   * occurrences, add up to no more than the number of increments.
   */
  lemma {:induction false} TotalWithinIncrements(keys: seq<string>, r: seq<Entry>)
    requires DistinctKeys(r)
    requires forall i :: 0 <= i < |r| ==> r[i].count == multiset(keys)[r[i].key]
    ensures Total(r) <= |keys|
    decreases |r|
  {
    if |r| > 0 {
      var rest := Without(keys, r[0].key);
      assert forall i :: 0 <= i < |r[1..]| ==> r[1..][i].key != r[0].key && r[1..][i] == r[i + 1];
      TotalWithinIncrements(rest, r[1..]);
    }
  }

  /** Entries that each count at least once are no more than their total. */
  lemma {:induction false} LengthWithinTotal(r: seq<Entry>)
    requires forall i :: 0 <= i < |r| ==> r[i].count >= 1
    ensures |r| <= Total(r)
    decreases |r|
  {
    if |r| > 0 {
      assert forall i :: 0 <= i < |r[1..]| ==> r[1..][i] == r[i + 1];
      LengthWithinTotal(r[1..]);
    }
  }

  /**
   * A ranking of counted keys never accounts for more requests than were
   * counted, and so never lists more entries than there were increments.
   */
  lemma RankedWithinIncrements(keys: seq<string>, n: nat, r: seq<Entry>)
    requires Ranked(CountKeys(keys), n, r)
    ensures Total(r) <= |keys|
    ensures |r| <= |keys|
  {
    CountedWithinIncrements(keys, CountKeys(keys), r);
  }

  /** The same bounds for any counter that counts occurrences in `keys`. */
  lemma CountedWithinIncrements(keys: seq<string>, c: Counter, r: seq<Entry>)
    requires forall k :: k in c ==> k in keys && c[k] == multiset(keys)[k]
    requires DistinctKeys(r)
    requires forall i :: 0 <= i < |r| ==> r[i].key in c && r[i].count == c[r[i].key]
    ensures Total(r) <= |keys|
    ensures |r| <= |keys|
  {
    TotalWithinIncrements(keys, r);
    LengthWithinTotal(r);
  }

  /**
   * The ranking is ascending, so it keeps the least frequent keys: with one
   * rare and one frequent key, a ranking of one entry is the rare key.
   */
  lemma RankingKeepsLeastFrequent(r: seq<Entry>)
    requires Ranked(map["rare" := 1, "frequent" := 5], 1, r)
    ensures r == [Entry("rare", 1)]
  {
    var c := map["rare" := 1, "frequent" := 5];
    assert |c| == 2 by {
      assert c.Keys == {"rare", "frequent"};
    }
    assert |r| == 1;
    assert r[0].count <= c["rare"] || Listed(r, "rare");
    assert r[0].key == "rare";
  }

  /** `Stats`: integer tallies and the three rankings (the percentages are not modelled). */
  datatype Stats = Stats(
    count: nat,
    ipv6: nat,
    http2: nat,
    serverError: nat,
    topUsers: seq<Entry>,
    topSection: seq<Entry>,
    topSources: seq<Entry>)

  /** The counter key of each request's source address (`SourceIP.String()`). */
  function SourceKeys(c: Codecs, reqs: seq<Request>): seq<string>
  {
    seq(|reqs|, i requires 0 <= i < |reqs| => IPText(c, reqs[i].sourceIP))
  }

  /** The counter key of each request's user. */
  function UserKeys(reqs: seq<Request>): seq<string>
  {
    seq(|reqs|, i requires 0 <= i < |reqs| => reqs[i].user)
  }

  /** The counter key of each request's section. */
  function SectionKeys(reqs: seq<Request>): seq<string>
  {
    seq(|reqs|, i requires 0 <= i < |reqs| => reqs[i].section)
  }

  /**
   * `NewStats`: one pass tallying requests, IPv6 sources, HTTP/2 requests
   * and server errors; then, for a positive `top`, the three rankings.
   */
  method NewStats(c: Codecs, reqs: seq<Request>, top: int) returns (s: Stats)
    ensures s.count == |reqs|
    ensures s.ipv6 == CountMatching(reqs, IsIPv6)
    ensures s.http2 == CountMatching(reqs, IsHTTP2)
    ensures s.serverError == CountMatching(reqs, IsServerError)
    ensures top <= 0 ==> s.topSources == [] && s.topUsers == [] && s.topSection == []
    ensures top > 0 ==> Ranked(CountKeys(SourceKeys(c, reqs)), top, s.topSources)
    ensures top > 0 ==> Ranked(CountKeys(UserKeys(reqs)), top, s.topUsers)
    ensures top > 0 ==> Ranked(CountKeys(SectionKeys(reqs)), top, s.topSection)
  {
    var total, ipv6, http2, serverError := 0, 0, 0, 0;
    for i := 0 to |reqs|
      invariant total == i
      invariant ipv6 == CountMatching(reqs[..i], IsIPv6)
      invariant http2 == CountMatching(reqs[..i], IsHTTP2)
      invariant serverError == CountMatching(reqs[..i], IsServerError)
    {
      assert reqs[..i + 1][..i] == reqs[..i];
      var req := reqs[i];
      total := total + 1;
      if IsIPv6(req) {
        ipv6 := ipv6 + 1;
      }
      if IsHTTP2(req) {
        http2 := http2 + 1;
      }
      if IsServerError(req) {
        serverError := serverError + 1;
      }
    }
    assert reqs[..|reqs|] == reqs;
    s := Stats(total, ipv6, http2, serverError, [], [], []);
    if top > 0 {
      var sources := Top(CountKeys(SourceKeys(c, reqs)), top);
      var users := Top(CountKeys(UserKeys(reqs)), top);
      var sections := Top(CountKeys(SectionKeys(reqs)), top);
      s := s.(topSources := sources, topUsers := users, topSection := sections);
    }
  }
}

=== FILE: store.dfy ===
/**
 * The append-only, time-ordered request store (store.go). The store is the
 * sequence of its requests, oldest first.
 */
module RequestStore {
  import opened Wrappers
  import opened Requests

  /** Stored times never decrease from the oldest request to the newest. */
  predicate Sorted(s: seq<Request>)
  {
    forall i, j :: 0 <= i < j < |s| ==> s[i].time <= s[j].time
  }

  /** The store refused a request older than its newest one. */
  datatype StoreError = InThePast

  /**
   * `Store.AddRequest`: append, unless the request is strictly older than
   * the newest stored one (an equal time is accepted). On a sorted store it
   * succeeds exactly when appending keeps the store sorted.
   */
  function AddRequest(s: seq<Request>, req: Request): (r: Result<seq<Request>, StoreError>)
    ensures r.Failure? <==> |s| > 0 && req.time < s[|s| - 1].time
    ensures r.Success? ==> r.value == s + [req]
    ensures Sorted(s) ==> (r.Success? <==> Sorted(s + [req]))
  {
    if |s| > 0 && req.time < s[|s| - 1].time then
      assert (s + [req])[|s| - 1] == s[|s| - 1] && (s + [req])[|s|] == req;
      Failure(InThePast)
    else Success(s + [req])
  }

  /**
   * Where the answer of `Since` starts: just after the newest request that is
   * not strictly newer than the deadline, scanning from the tail.
   */
  function SinceStart(s: seq<Request>, deadline: int): (k: nat)
    ensures k <= |s|
    ensures forall i :: k <= i < |s| ==> s[i].time > deadline
    ensures k > 0 ==> s[k - 1].time <= deadline
    decreases |s|
  {
    if |s| == 0 then 0
    else if s[|s| - 1].time <= deadline then |s|
    else SinceStart(s[..|s| - 1], deadline)
  }

  /**
   * `Store.Since`: the longest suffix whose requests are all strictly newer
   * than the deadline. The store itself is left as it is.
   */
  function Since(s: seq<Request>, deadline: int): (r: seq<Request>)
    ensures |r| <= |s| && r == s[|s| - |r|..]
    ensures forall i :: 0 <= i < |r| ==> r[i].time > deadline
    ensures |r| < |s| ==> s[|s| - |r| - 1].time <= deadline
  {
    s[SinceStart(s, deadline)..]
  }

  /**
   * Where the answer of `Clean` starts: just before the oldest request that
   * is strictly newer than the deadline, scanning from the head.
   */
  function CleanStart(s: seq<Request>, deadline: int): (k: nat)
    ensures k <= |s|
    ensures forall i :: 0 <= i < k ==> s[i].time <= deadline
    ensures k < |s| ==> s[k].time > deadline
    decreases |s|
  {
    if |s| == 0 || s[0].time > deadline then 0
    else 1 + CleanStart(s[1..], deadline)
  }

  /**
   * `Store.Clean`: drop the longest prefix whose requests are all at or
   * before the deadline.
   */
  function Clean(s: seq<Request>, deadline: int): (r: seq<Request>)
    ensures |r| <= |s| && r == s[|s| - |r|..]
    ensures forall i :: 0 <= i < |s| - |r| ==> s[i].time <= deadline
    ensures |r| > 0 ==> r[0].time > deadline
    ensures |s| == 0 || deadline < s[0].time ==> r == s
  {
    s[CleanStart(s, deadline)..]
  }

  /** `Deadline`: the instant a window of the given length before `now` begins. */
  function Deadline(now: int, window: int): int
  {
    now - window
  }

  /**
   * The loop of `Store.Since`: walk from the newest request towards the
   * oldest and cut just after the first one not newer than the deadline.
   */
  method ScanSince(s: seq<Request>, deadline: int) returns (r: seq<Request>)
    ensures r == Since(s, deadline)
  {
    var i := |s| - 1;
    while i >= 0
      invariant -1 <= i < |s|
      invariant forall j :: i < j < |s| ==> s[j].time > deadline
    {
      if s[i].time <= deadline {
        SinceStartUnique(s, deadline, i + 1);
        return s[i + 1..];
      }
      i := i - 1;
    }
    SinceStartUnique(s, deadline, 0);
    return s;
  }

  /** The loop of `Store.Clean`: drop the head while it is not newer than the deadline. */
  method ScanClean(s: seq<Request>, deadline: int) returns (r: seq<Request>)
    ensures r == Clean(s, deadline)
  {
    r := s;
    while |r| > 0
      invariant |r| <= |s| && r == s[|s| - |r|..]
      invariant forall i :: 0 <= i < |s| - |r| ==> s[i].time <= deadline
    {
      if r[0].time <= deadline {
        r := r[1..];
      } else {
        break;
      }
    }
    CleanStartUnique(s, deadline, |s| - |r|);
  }

  /** Only one index can separate "not newer" from "all newer" as `SinceStart` does. */
  lemma SinceStartUnique(s: seq<Request>, deadline: int, k: nat)
    requires k <= |s|
    requires forall i :: k <= i < |s| ==> s[i].time > deadline
    requires k > 0 ==> s[k - 1].time <= deadline
    ensures SinceStart(s, deadline) == k
  {
  }

  /** Only one index can separate "all not newer" from "newer" as `CleanStart` does. */
  lemma CleanStartUnique(s: seq<Request>, deadline: int, k: nat)
    requires k <= |s|
    requires forall i :: 0 <= i < k ==> s[i].time <= deadline
    requires k < |s| ==> s[k].time > deadline
    ensures CleanStart(s, deadline) == k
  {
  }

  /** A later deadline never yields more requests: its answer is a suffix of the earlier one's. */
  lemma SinceAntitone(s: seq<Request>, d1: int, d2: int)
    requires d1 <= d2
    ensures |Since(s, d2)| <= |Since(s, d1)|
    ensures Since(s, d2) == Since(s, d1)[|Since(s, d1)| - |Since(s, d2)|..]
  {
  }

  /** On a sorted store a request is in `Since` exactly when it is newer than the deadline. */
  lemma SinceExact(s: seq<Request>, deadline: int)
    requires Sorted(s)
    ensures forall i :: 0 <= i < |s| ==> (i >= |s| - |Since(s, deadline)| <==> s[i].time > deadline)
  {
  }

  /** On a sorted store, scanning from the tail and cleaning from the head agree. */
  lemma SinceIsClean(s: seq<Request>, deadline: int)
    requires Sorted(s)
    ensures Since(s, deadline) == Clean(s, deadline)
  {
    var k := CleanStart(s, deadline);
    SinceStartUnique(s, deadline, k);
  }

  /** Cleaning twice with the same deadline is cleaning once. */
  lemma CleanIdempotent(s: seq<Request>, deadline: int)
    ensures Clean(Clean(s, deadline), deadline) == Clean(s, deadline)
  {
  }

  /** On a sorted store every request left by `Clean` is newer than the deadline, and the store stays sorted. */
  lemma CleanKeepsNewer(s: seq<Request>, deadline: int)
    requires Sorted(s)
    ensures Sorted(Clean(s, deadline))
    ensures forall i :: 0 <= i < |Clean(s, deadline)| ==> Clean(s, deadline)[i].time > deadline
  {
  }

  /** A deadline at or after the newest request empties a sorted store. */
  lemma CleanEmpties(s: seq<Request>, deadline: int)
    requires Sorted(s)
    requires |s| > 0 && s[|s| - 1].time <= deadline
    ensures Clean(s, deadline) == []
  {
  }

  /** A deadline before the newest request keeps that request as the newest. */
  lemma CleanKeepsNewest(s: seq<Request>, deadline: int)
    requires |s| > 0 && s[|s| - 1].time > deadline
    ensures |Clean(s, deadline)| > 0
    ensures Clean(s, deadline)[|Clean(s, deadline)| - 1] == s[|s| - 1]
  {
  }

  /** Widening the window before a fixed `now` never loses requests. */
  lemma SinceWindowMonotone(s: seq<Request>, now: int, w1: int, w2: int)
    requires w1 <= w2
    ensures |Since(s, Deadline(now, w1))| <= |Since(s, Deadline(now, w2))|
  {
    SinceAntitone(s, Deadline(now, w2), Deadline(now, w1));
  }
}

=== FILE: test_vectors.dfy ===
/**
 * The expectations of the repository's unit tests, restated over the model.
 */
module TestVectors {
  import opened Wrappers
  import opened Requests
  import opened Parser
  import opened RequestStore
  import opened LogFormat

  /** parser_test.go: an empty or separator-free line is refused, "part - line" is cut in two. */
  lemma ParseNextVectors()
    ensures ParseNext("", " - ") == Failure(TooShort)
    ensures ParseNext("part - line", " - ") == Success(Cut("part", "line"))
  {
    var line := "part - line";
    assert line[0..3][0] == 'p' && line[1..4][0] == 'a' && line[2..5][0] == 'r' && line[3..6][0] == 't';
    assert Text.Occurs(line, " - ", 4);
    assert Text.Index(line, " - ") == 4;
    assert line[..4] == "part" && line[7..] == "line";
  }

  /** parser_test.go: a line without the separator is refused. */
  lemma ParseNextRefusesMissingSeparator()
    ensures ParseNext("this line is not valid", " - ").Failure?
  {
    var invalid := "this line is not valid";
    assert forall j :: 0 <= j < |invalid| ==> invalid[j] != '-';
    Text.MissingCharacter(invalid, " - ", 1);
  }

  /** parser_test.go: the section of "", "/", "/api" and "/api/path". */
  lemma ParseSectionVectors()
    ensures ParseSection("") == "/"
    ensures ParseSection("/") == "/"
    ensures ParseSection("/api") == "/api"
    ensures ParseSection("/api/path") == "/api"
  {
    assert Text.Occurs("api/path", "/", 3);
  }

  /**
   * request_test.go: only an "HTTP/2" version is HTTP/2, only a v6 address
   * is IPv6, and only codes from 500 up are server errors.
   */
  lemma RequestVectors(req: Request)
    ensures IsHTTP2(req.(httpVersion := "HTTP/2.0"))
    ensures !IsHTTP2(req.(httpVersion := "HTTP/1.1"))
    ensures !IsHTTP2(req.(httpVersion := "HTTP/1.0"))
    ensures !IsHTTP2(req.(httpVersion := ""))
    ensures !IsHTTP2(req.(httpVersion := "blah"))
    ensures !IsIPv6(req.(sourceIP := None))
    ensures !IsIPv6(req.(sourceIP := Some(V4(0x7f000001))))
    ensures IsIPv6(req.(sourceIP := Some(V6(1))))
    ensures !IsServerError(req.(code := 200)) && !IsServerError(req.(code := 0))
    ensures !IsServerError(req.(code := -1))
    ensures IsServerError(req.(code := 500)) && IsServerError(req.(code := 599))
  {
    assert "HTTP/1.1"[..6][5] == '1';
    assert "HTTP/1.0"[..6][5] == '1';
  }

  /**
   * store_test.go: two requests per second for three seconds; a deadline
   * after or at the newest time selects nothing, one a second earlier the
   * newest two.
   */
  lemma StoreVectors(r: Request)
    ensures var s := [r.(time := 0), r.(time := 0), r.(time := 1), r.(time := 1),
                      r.(time := 2), r.(time := 2)];
            && Since(s, Deadline(2, -1)) == []
            && Since(s, Deadline(2, 0)) == []
            && |Since(s, Deadline(2, 1))| == 2
            && |Since(s, Deadline(2, 60))| == 6
            && |Clean(s, Deadline(2, 1))| == 2
  {
    var s := [r.(time := 0), r.(time := 0), r.(time := 1), r.(time := 1),
              r.(time := 2), r.(time := 2)];
    SinceStartUnique(s, 1, 4);
    SinceStartUnique(s, -58, 0);
    CleanStartUnique(s, 1, 4);
  }

  /**
   * request_test.go: the zero request prints `<nil> -  [01/Jan/0001:00:00:00 +0000] "  " 0 0`,
   * written here field by field as the line template groups it.
   */
  lemma ZeroRequestPrints(c: Codecs)
    requires c.formatTime(0) == "01/Jan/0001:00:00:00 +0000" && c.formatInt(0) == "0"
    ensures String(c, Request(None, "", 0, "", "", "", "", 0, 0))
              == "<nil>" + " - " + ("" + " [" + ("01/Jan/0001:00:00:00 +0000" + "] \"" + ("" + " "
                 + ("" + " " + ("" + "\" " + ("0" + " " + "0"))))))
  {
  }

  /**
   * The sample line of parser_test.go and request_test.go,
   * `127.0.0.1 - mary [09/May/2018:16:00:42 +0000] "POST /api/user HTTP/1.0" 503 12`,
   * written field by field as the line template groups it.
   */
  const SampleLine: string :=
    "127.0.0.1" + " - " + ("mary" + " [" + ("09/May/2018:16:00:42 +0000" + "] \"" + ("POST" + " "
    + ("/api/user" + " " + ("HTTP/1.0" + "\" " + ("503" + " " + "12"))))))

  /** Its eight raw fields. */
  const SampleFields: Fields :=
    Fields("127.0.0.1", "mary", "09/May/2018:16:00:42 +0000", "POST", "/api/user", "HTTP/1.0", "503", "12")

  /** No field of the sample holds the first character of the separator after it. */
  lemma SampleFieldsLackSeparators()
    ensures forall k, j :: 0 <= k < |Separators| && 0 <= j < |Leading(SampleFields)[k]| ==>
              Leading(SampleFields)[k][j] != Separators[k][0]
  {
    assert forall j :: 0 <= j < |"127.0.0.1"| ==> "127.0.0.1"[j] != ' ';
    assert forall j :: 0 <= j < |"mary"| ==> "mary"[j] != ' ';
    assert forall j :: 0 <= j < |"09/May/2018:16:00:42 +0000"| ==> "09/May/2018:16:00:42 +0000"[j] != ']';
    assert forall j :: 0 <= j < |"POST"| ==> "POST"[j] != ' ';
    assert forall j :: 0 <= j < |"/api/user"| ==> "/api/user"[j] != ' ';
    assert forall j :: 0 <= j < |"HTTP/1.0"| ==> "HTTP/1.0"[j] != '"';
    assert forall j :: 0 <= j < |"503"| ==> "503"[j] != ' ';
  }

  /** The sample line is the layout of its fields. */
  lemma SampleLayout()
    ensures Layout(SampleFields) == SampleLine
  {
    LayoutTemplate(SampleFields);
  }

  /** Each sample field ends where its separator first occurs. */
  lemma SampleCuts()
    ensures CutsAtFirst(Leading(SampleFields), Separators, SampleFields.size)
  {
    SampleFieldsLackSeparators();
    CutsAtFirstWhenLacking(Leading(SampleFields), Separators, SampleFields.size);
  }

  /** parser_test.go: the sample line is cut into its eight fields. */
  lemma SampleLineSplits()
    ensures Split(SampleLine) == Success(SampleFields)
  {
    SampleLayout();
    SampleCuts();
    SplitOfLayout(SampleFields);
  }

  /** The sample's path lies in section "/api". */
  lemma SampleSection()
    ensures ParseSection("/api/user") == "/api"
  {
    assert Text.Occurs("api/user", "/", 3);
  }

  /** The sample line is accepted exactly when its fields convert. */
  lemma SampleLineParses(c: Codecs)
    ensures Parse(c, SampleLine) == Decode(c, SampleFields)
    ensures Text.TrimRight(SampleLine, LineBreaks) == SampleLine
  {
    SampleLineSplits();
    SampleLayout();
  }

  /**
   * parser_test.go and request_test.go: with conversions that read the
   * sample's address, date, code and size and print them back the same
   * way, the sample parses into the expected request, which prints back as
   * the sample line.
   */
  lemma SampleLineRoundTrip(c: Codecs)
    requires c.parseIP("127.0.0.1").Some? && c.parseTime("09/May/2018:16:00:42 +0000").Some?
    requires c.parseInt("503") == Some(503) && c.parseInt("12") == Some(12)
    requires Canonical(c, SampleFields)
    ensures Parse(c, SampleLine).Success?
    ensures var req := Parse(c, SampleLine).value;
            && req.user == "mary" && req.verb == "POST" && req.path == "/api/user"
            && req.section == "/api" && req.httpVersion == "HTTP/1.0"
            && req.code == 503 && req.size == 12
            && String(c, req) == SampleLine
  {
    SampleLineParses(c);
    SampleSection();
  }
}

=== FILE: text.dfy ===
/**
 * The handful of Go `strings` functions the log parser and the request
 * predicates rely on, over strings modelled as sequences of characters.
 */
module Text {

  /** `sep` occurs in `s` starting at index `i`. */
  predicate Occurs(s: string, sep: string, i: int)
  {
    0 <= i && i + |sep| <= |s| && s[i..i + |sep|] == sep
  }

  /** `sep` occurs somewhere in `s`. */
  ghost predicate Contains(s: string, sep: string)
  {
    exists i :: Occurs(s, sep, i)
  }

  /** The first occurrence of `sep` in `s` at or after `from`, or -1 if none. */
  function IndexFrom(s: string, sep: string, from: nat): (r: int)
    ensures r == -1 || (from <= r && Occurs(s, sep, r))
    ensures forall j :: from <= j && (r == -1 || j < r) ==> !Occurs(s, sep, j)
    decreases |s| - from
  {
    if from + |sep| > |s| then -1
    else if s[from..from + |sep|] == sep then from
    else IndexFrom(s, sep, from + 1)
  }

  /** Go's `strings.Index`: the index of the first occurrence of `sep`, or -1. */
  function Index(s: string, sep: string): (r: int)
    ensures r == -1 <==> !Contains(s, sep)
    ensures r != -1 ==> Occurs(s, sep, r) && forall j :: 0 <= j < r ==> !Occurs(s, sep, j)
  {
    IndexFrom(s, sep, 0)
  }

  /** An occurrence inside a suffix is an occurrence inside the whole string. */
  lemma OccursInSuffix(prefix: string, s: string, sep: string, i: int)
    requires Occurs(s, sep, i)
    ensures Occurs(prefix + s, sep, |prefix| + i)
  {
    assert (prefix + s)[|prefix| + i..|prefix| + i + |sep|] == s[i..i + |sep|];
  }

  /** A string lacking one of the characters of `sep` does not contain `sep`. */
  lemma MissingCharacter(s: string, sep: string, k: int)
    requires 0 <= k < |sep|
    requires forall j :: 0 <= j < |s| ==> s[j] != sep[k]
    ensures !Contains(s, sep)
  {
    forall i | 0 <= i && i + |sep| <= |s|
      ensures !Occurs(s, sep, i)
    {
      assert s[i..i + |sep|][k] == s[i + k];
    }
  }

  /** Go's `strings.HasPrefix`. */
  predicate HasPrefix(s: string, prefix: string)
  {
    |prefix| <= |s| && s[..|prefix|] == prefix
  }

  /** Go's `strings.TrimPrefix`: drop one leading `prefix` if present. */
  function TrimPrefix(s: string, prefix: string): (r: string)
    ensures HasPrefix(s, prefix) ==> s == prefix + r
    ensures !HasPrefix(s, prefix) ==> r == s
  {
    if HasPrefix(s, prefix) then s[|prefix|..] else s
  }

  /**
   * Go's `strings.TrimRight(s, cutset)`: drop every trailing character that
   * belongs to `cutset`.
   */
  function TrimRight(s: string, cutset: set<char>): (r: string)
    ensures HasPrefix(s, r)
    ensures |r| == 0 || r[|r| - 1] !in cutset
    ensures forall i :: |r| <= i < |s| ==> s[i] in cutset
    decreases |s|
  {
    if |s| > 0 && s[|s| - 1] in cutset then TrimRight(s[..|s| - 1], cutset) else s
  }
}

=== FILE: wrappers.dfy ===
/** Failure-compatible wrappers used by every other module of the model. */
module Wrappers {

  /** An optional value; `None` plays the role of Go's `nil`. */
  datatype Option<+T> = None | Some(value: T)

  /** The outcome of an operation that may fail with an error value. */
  datatype Result<+R, +E> = Success(value: R) | Failure(error: E)
}
